=== FILE: README.md ===
# Gift shop cart and gift assistant: a Dafny model

This project models the part of the gift shop that keeps a signed-in shopper's cart. It covers the server's cart document and its controller (`back-end/models/Cart.js`, `back-end/controllers/cartController.js`) and the client's cart context (`src/context/CartContext.tsx`). It also models the pure logic of the gift assistant wizard (`src/pages/GiftAssistantPage.tsx`) and of the bottom navigation bar (`src/components/layout/BottomNavigation.tsx`).

Modules:

- `Wrappers` defines `Option`, which stands for JavaScript's `undefined`.
- `Seqs` holds a generic `SumOf` and `Filter`, which stand for `reduce` and `filter`, together with their lemmas.
- `CartSchema` models the cart document.
  - A cart line is a product id, a snapshot of the product and a quantity.
  - A cart belongs to one user, holds a list of lines and carries `updatedAt`.
  - The save validation is the schema's validators: the required strings must be non-empty, the price must be present and the quantity must be at least 1.
  - `cartTotal` and `cartCount` are sums over the lines.
  - `Sync` relates a client view to a stored cart.
- `CartController` models the six handlers (get, add, update, remove, clear, count).
  - Each handler is a pure function from a store, `map<UserId, Cart>`, to an `Outcome`.
  - An `Outcome` is the new store plus a response: a body, or an error of kind 400, 404 or 500.
  - The clock is the parameter `now`. Each save stamps it into `updatedAt`.
  - A save that fails validation stores nothing and answers 500.
- `CartContext` models the client.
  - The sign-in guard comes first.
  - The state updaters run after a successful server call: add-or-bump, filter, and `Math.max(1, q)`.
  - `refreshCart`, the sign-in effect and the recomputed totals complete the module.
  - Whether a server call succeeded is the parameter `ok`.
- `CartSync` runs client and server together. Each request goes over a `Link`: delivered, lost before the server sees it, or handled with the answer lost. It proves that every reliable action keeps the client's view in step with the stored cart, including any sequence of them (`RunKeepsSync`). An action is reliable when no mutation's answer is lost and every sign-in has a user and an answered fetch. Concrete runs show the sync breaking when either fails (`UnreliableSignInDesyncs`, `LostReplyDesyncs`).
- `GiftWizard` models the four-step form: step moves, per-step validity, reset, interest toggling and the style classifier.
- `GiftFilters` models the product filters of `analyzeGifts`. `Matching` is the filter as the page computes it. `MatchingCorrected` reads "over-N" as its label means (see Findings):
  - the budget, including JavaScript `split` and `parseInt`;
  - the occasion map;
  - the interest-to-category map.
- `GiftRanking` models the special-gift fallback, the stable score sort and the cut to twelve. `Recommend` is the page's pipeline and `RecommendCorrected` the corrected one.
- `BottomNavigation` models `isActive`, the rendered entries and the favourites badge text.

The code keeps no guest cart on the device and merges nothing at sign-in. A signed-out add, remove, update or clear is refused with a sign-in prompt and touches nothing. Signing out empties the view. The model follows the code (`CartContext.AddToCart` and the other client operations, `CartContext.AuthChanged`).

## Model

| member | source | states |
|---|---|---|
| CartSchema.IndexOf | back-end/controllers/cartController.js:71-73 | finds the first line with the product, or None exactly when no line has it |
| CartSchema.Format | back-end/controllers/cartController.js:19-26 | the response lines match the stored lines one for one: id, names, price, image and quantity |
| CartSchema.QtyOfUnique | back-end/models/Cart.js:3-24 | with one line per product, a product's total quantity is its line's quantity |
| CartSchema.CountCoversLines | back-end/models/Cart.js:18-23 | since every stored line holds at least one unit, `cartCount` is at least the number of lines |
| CartSchema.WithoutUnique | back-end/controllers/cartController.js:182-189 | filtering a product out never introduces a duplicate line |
| CartSchema.WithoutSplices | back-end/controllers/cartController.js:182-189 | with unique product ids, removing a product cuts out exactly its line and keeps the rest in order |
| CartController.NewLine | back-end/controllers/cartController.js:80-93 | a first add copies id, price, category and occasion, and sets each flag only when it was sent as true; the line exists iff a price was sent; the names and image stored are the ones sent; it passes the schema iff quantity >= 1 and both names and the image are non-empty strings |
| CartController.GetCart | back-end/controllers/cartController.js:5-47 | a missing cart is created empty and saved; otherwise the store is untouched; the response lines match the stored lines one for one in id, names, price, image and quantity; `cartTotal` and `cartCount` are the sums over them; the store invariant is kept |
| CartController.AddToCart | back-end/controllers/cartController.js:50-118 | 400 without product data or a truthy id, and for a quantity below 1 (default 1); an error leaves the store unchanged; success stores the new lines under the user, stamped `now`, and answers their totals; the invariant is kept |
| CartController.AddToCartAccepts | back-end/controllers/cartController.js:53-96 | an add succeeds iff the request is well formed and either the product already has a line or its snapshot passes the schema |
| CartController.AddToCartUpserts | back-end/controllers/cartController.js:71-94 | an existing line gains exactly the added quantity and every other line is unchanged; otherwise one new line is appended; the product's quantity and `cartCount` grow by the added quantity |
| CartController.AddEachAccumulates | back-end/controllers/cartController.js:71-96 | repeated adds of one product accumulate into a single line whose quantity is the sum; other products are untouched |
| CartController.UpdateCartItem | back-end/controllers/cartController.js:121-168 | 400 for quantity < 1, then 404 with no cart, then 404 when the product has no line; a missing quantity on an existing line fails the required validator and answers 500; errors change nothing; success is a stamped save answered with its totals |
| CartController.UpdateCartItemOverwrites | back-end/controllers/cartController.js:137-157 | succeeds iff quantity >= 1 and the product has a line; then only that line's quantity changes, to exactly the new value, and `cartCount` changes by the difference |
| CartController.RemoveFromCart | back-end/controllers/cartController.js:171-213 | 404 with no cart or no line for the product; success stores the cart without that product's lines and answers its totals |
| CartController.RemoveFromCartCutsLine | back-end/controllers/cartController.js:183-202 | succeeds iff the product has a line; the result is the cart with that one line spliced out; count and total fall by that line's quantity and amount; other products keep their quantities |
| CartController.ClearCart | back-end/controllers/cartController.js:216-238 | 404 with no cart; otherwise the cart is saved empty with totals 0 and 0; clearing an empty cart changes only `updatedAt` |
| CartController.GetCartCount | back-end/controllers/cartController.js:241-261 | a read-only count: 0 with no cart, else the sum of the quantities, which is never negative in a valid store |
| CartContext.QtyOrOne | src/context/CartContext.tsx:108 | the quantity-or-one default: a zero quantity becomes 1 and any other is kept |
| CartContext.AddedToView | src/context/CartContext.tsx:116-129 | a product in the view gains the quantity-or-one default on its lines and nothing else changes; a new product is appended with that quantity; unique ids stay unique |
| CartContext.RemovedFromView | src/context/CartContext.tsx:175 | the product is gone; every other line is kept; nothing new appears; removing an absent product changes nothing |
| CartContext.RemovedFromViewSplices | src/context/CartContext.tsx:175 | with unique ids, removing the k-th line's product cuts out exactly that line and keeps the rest in order |
| CartContext.QuantitySetInView | src/context/CartContext.tsx:227-231 | only the product's lines change, and only in quantity, which becomes `max(1, q)`: exactly q when q >= 1 and 1 otherwise |
| CartContext.AddToCart | src/context/CartContext.tsx:82-145 | signed out: a sign-in prompt and no change; a failed server call: no change; a successful call applies the add updater, and the view changes in no other case |
| CartContext.RemoveFromCart | src/context/CartContext.tsx:146-192 | the same guard; a successful call filters the product out of the view, and only then does the view change |
| CartContext.UpdateQuantity | src/context/CartContext.tsx:193-241 | the same guard; a quantity <= 0 is a remove; otherwise a successful call sets the quantity, and only then does the view change |
| CartContext.ClearCart | src/context/CartContext.tsx:242-280 | the same guard; a successful call empties the view, and only then does it change |
| CartContext.RefreshCart | src/context/CartContext.tsx:51-72 | signed out or on a failed fetch nothing changes; otherwise the view becomes the fetched cart |
| CartContext.AuthChanged | src/context/CartContext.tsx:74-80 | signing out, or having no user, empties the view; signing in loads the fetched cart, and a failed fetch keeps the view as it was |
| CartSync.SyncedTotals | src/context/CartContext.tsx:281-285 | over a synced view, the client's recomputed count and total equal the server's |
| CartSync.ShownTotalsMatchServer | src/context/CartContext.tsx:281-285 | in a consistent system, the badge count and total the client shows are the stored cart's |
| CartSync.FilterKeepsSync | src/context/CartContext.tsx:175 | the client filter and the server filter keep a synced pair synced |
| CartSync.AddKeepsSync | src/context/CartContext.tsx:100-129 | an add keeps view and store consistent unless the server's answer is lost |
| CartSync.RemoveKeepsSync | src/context/CartContext.tsx:163-175 | a remove keeps view and store consistent unless the server's answer is lost |
| CartSync.UpdateKeepsSync | src/context/CartContext.tsx:193-231 | an update, including the <= 0 path through remove, keeps view and store consistent unless the server's answer is lost |
| CartSync.ClearKeepsSync | src/context/CartContext.tsx:259-270 | a clear keeps view and store consistent unless the server's answer is lost |
| CartSync.RefreshKeepsSync | src/context/CartContext.tsx:51-72 | a refresh, answered or not, keeps a consistent system consistent |
| CartSync.RefreshSyncs | src/context/CartContext.tsx:51-72 | an answered refresh makes any signed-in view consistent with a valid store |
| CartSync.LoginSyncs | src/context/CartContext.tsx:74-77 | signing in with a user and an answered fetch makes the view consistent with that user's stored cart, whatever it held before |
| CartSync.LogoutEmpties | src/context/CartContext.tsx:78-79 | signing out empties the view and leaves a consistent system |
| CartSync.RunKeepsSync | src/context/CartContext.tsx:51-280 | every sequence of reliable client actions keeps the system consistent |
| CartSync.RunFromInitial | src/context/CartContext.tsx:37-80 | from the provider's first state (signed out, empty view), reliable use keeps the view in step with any valid store |
| CartSync.UnreliableSignInDesyncs | src/context/CartContext.tsx:51-80 | from a consistent start, a sign-in whose fetch is lost either way, or one without a user, leaves a view that misses the stored line |
| CartSync.LostReplyDesyncs | src/context/CartContext.tsx:100-129 | a successful add whose answer is lost leaves the server one line ahead of a consistent view |
| GiftWizard.NextStep | src/pages/GiftAssistantPage.tsx:308-310 | advances by one exactly below step 4; stays within 1..4 |
| GiftWizard.PrevStep | src/pages/GiftAssistantPage.tsx:312-314 | goes back by one exactly above step 1; stays within 1..4 |
| GiftWizard.NextThenPrev | src/pages/GiftAssistantPage.tsx:308-314 | back after forward returns to the same step below the last |
| GiftWizard.PrevThenNext | src/pages/GiftAssistantPage.tsx:308-314 | forward after back returns to the same step above the first |
| GiftWizard.IsStepValid | src/pages/GiftAssistantPage.tsx:491-506 | per step, which fields must be non-empty; step 4 always; any other step never |
| GiftWizard.Advance | src/pages/GiftAssistantPage.tsx:308-310 | the step advances by one iff it is valid and below the last; otherwise it stays; the form and result flags are untouched |
| GiftWizard.ResetForm | src/pages/GiftAssistantPage.tsx:508-522 | back to step 1 with no result shown and the initial, all-empty form, which fails steps 1 to 3 |
| GiftWizard.ResetRestoresStart | src/pages/GiftAssistantPage.tsx:70-86 | a reset returns the wizard to exactly its first-render state, and resetting again changes nothing |
| GiftWizard.ResetBlocksAdvance | src/pages/GiftAssistantPage.tsx:491-522 | right after a reset, the next button does nothing |
| GiftWizard.ToggleInterest | src/pages/GiftAssistantPage.tsx:299-306 | the interest is present afterwards iff it was absent before; every other interest is present afterwards iff it was before; an absent one is appended at the end (order on removal: `ToggleRemovesAt`) |
| GiftWizard.ToggleTwiceRestores | src/pages/GiftAssistantPage.tsx:299-306 | toggling an absent interest twice restores the list |
| GiftWizard.ToggleRemovesAt | src/pages/GiftAssistantPage.tsx:299-306 | in a duplicate-free list, toggling off the k-th interest cuts out exactly that entry and keeps the rest in order |
| GiftWizard.ToggleKeepsNoDuplicates | src/pages/GiftAssistantPage.tsx:299-306 | toggling never duplicates an interest |
| GiftWizard.ClassifyStyle | src/pages/GiftAssistantPage.tsx:322-342 | the chosen style's signal holds and no higher-priority style's signal does |
| GiftFilters.SplitJoin | src/pages/GiftAssistantPage.tsx:348 | `split` cuts at every separator, leaves none in the pieces, and joining them back gives the input |
| GiftFilters.ParseDecimal | src/pages/GiftAssistantPage.tsx:351 | `parseInt` reads back a decimal numeral as its value |
| GiftFilters.UnderBudget | src/pages/GiftAssistantPage.tsx:347-354 | "under-N" keeps exactly the prices in [0, N] |
| GiftFilters.RangeBudget | src/pages/GiftAssistantPage.tsx:347-354 | "A-B" keeps exactly the prices in [A, B], under both readings |
| GiftFilters.OverBudget | src/pages/GiftAssistantPage.tsx:347-354 | corrected: "over-N" keeps exactly the prices of at least N |
| GiftFilters.OverBudgetAsWrittenRejectsAll | src/pages/GiftAssistantPage.tsx:348-353 | as written, "over-N" rejects every price |
| GiftFilters.UnmappedOccasionExcludesTagged | src/pages/GiftAssistantPage.tsx:357-369 | an occasion missing from the map rejects every product that has an occasion id and keeps the rest |
| GiftFilters.RelevantCategories | src/pages/GiftAssistantPage.tsx:382-384 | a category is relevant iff some chosen interest maps to it |
| GiftFilters.UnmappedInterestsKeepAll | src/pages/GiftAssistantPage.tsx:372-389 | interests that map to no category filter nothing |
| GiftFilters.Matching | src/pages/GiftAssistantPage.tsx:345-392 | exactly the catalogue products that pass all three filters, with the budget test as written |
| GiftFilters.MatchingCorrected | src/pages/GiftAssistantPage.tsx:345-392 | exactly the catalogue products that pass all three filters, with "over-N" read as its label means |
| GiftFilters.MatchingAppend | src/pages/GiftAssistantPage.tsx:345-392 | both filters distribute over concatenation, so matches stay in catalogue order |
| GiftFilters.MatchingSingle | src/pages/GiftAssistantPage.tsx:345-392 | a single product is kept exactly once when it passes and dropped otherwise |
| GiftFilters.ReadingsAgreeOffOver | src/pages/GiftAssistantPage.tsx:347-354 | the two budget readings decide every product alike unless the budget's first piece is "over" |
| GiftFilters.OverBudgetMatchesNothing | src/pages/GiftAssistantPage.tsx:345-392 | as written, an "over-N" budget lets no product through |
| GiftFilters.OverBudgetCorrectedMatches | src/pages/GiftAssistantPage.tsx:345-392 | corrected, "over-N" keeps exactly the products priced at least N that pass the occasion and interest tests |
| GiftRanking.Score | src/pages/GiftAssistantPage.tsx:402-409 | the score lies in 0..3, is at least 2 iff the product is a special gift, and is odd iff it is a bestseller |
| GiftRanking.Fallback | src/pages/GiftAssistantPage.tsx:394-397 | the matches, or, when there are none, exactly the catalogue's special gifts |
| GiftRanking.FallbackAppend | src/pages/GiftAssistantPage.tsx:395-397 | with no match, the special gifts of a catalogue are those of its parts, in catalogue order |
| GiftRanking.FallbackSingle | src/pages/GiftAssistantPage.tsx:395-397 | with no match, a single product is kept once when it is a special gift and dropped otherwise |
| GiftRanking.RankIsSorted | src/pages/GiftAssistantPage.tsx:400-412 | the ranking is ordered by non-increasing score |
| GiftRanking.GroupsPartition | src/pages/GiftAssistantPage.tsx:402-409 | every product falls in exactly one score group, as often as it occurs |
| GiftRanking.RankIsPermutation | src/pages/GiftAssistantPage.tsx:400-412 | the ranking is a permutation of the candidates |
| GiftRanking.RankIsStable | src/pages/GiftAssistantPage.tsx:400-412 | products of equal score keep their order among the candidates, as the stable `Array.prototype.sort` does; the candidates are in catalogue order (`MatchingAppend`, `FallbackAppend`) |
| GiftRanking.RankKeepsCandidates | src/pages/GiftAssistantPage.tsx:400-412 | the ranking is sorted, as long as the candidates, and draws only from them |
| GiftRanking.Cut | src/pages/GiftAssistantPage.tsx:400-413 | min(12, n) products, exactly the first ones of the ranking, sorted by score, all drawn from the candidates |
| GiftRanking.Recommend | src/pages/GiftAssistantPage.tsx:394-413 | min(12, n) of the page's candidates, exactly the first ones of their ranking, sorted by score, all from the catalogue |
| GiftRanking.RecommendCorrected | src/pages/GiftAssistantPage.tsx:394-413 | the same for the candidates of the corrected filters |
| GiftRanking.RecommendFallback | src/pages/GiftAssistantPage.tsx:394-397 | when nothing matches, every recommendation is a special gift from the catalogue |
| GiftRanking.OverBudgetRecommendsSpecialGifts | src/pages/GiftAssistantPage.tsx:345-413 | as written, an "over-N" budget always recommends the first twelve ranked special gifts, whatever the prices |
| GiftRanking.CutKeepsBest | src/pages/GiftAssistantPage.tsx:413 | nothing the cut leaves out of the ranking scores higher than anything it keeps |
| BottomNavigation.PathOf | src/components/layout/BottomNavigation.tsx:27-62 | every route starts with "/", and only the home entry's route is "/" itself |
| BottomNavigation.IsActive | src/components/layout/BottomNavigation.tsx:64-67 | home is active only on "/"; any other entry is active iff its path is a prefix of the location |
| BottomNavigation.SubpathIsActive | src/components/layout/BottomNavigation.tsx:64-67 | every location beneath a non-home path highlights that entry |
| BottomNavigation.PrefixNotSegment | src/components/layout/BottomNavigation.tsx:66 | "/categoriesX" highlights the categories entry; "/categories" does not highlight home |
| BottomNavigation.AtMostOneActive | src/components/layout/BottomNavigation.tsx:27-67 | no location highlights two different entries |
| BottomNavigation.RootShowsHome | src/components/layout/BottomNavigation.tsx:64-67 | "/" highlights home and nothing else |
| BottomNavigation.BadgeLabel | src/components/layout/BottomNavigation.tsx:106-110 | a badge shows iff the count is positive; "9+" iff it exceeds nine; otherwise a single digit 1..9 |
| BottomNavigation.BadgeRoundTrip | src/components/layout/BottomNavigation.tsx:110 | reading the badge back gives the count, capped at ten for "9+" |
| BottomNavigation.BadgeDistinguishesSmallCounts | src/components/layout/BottomNavigation.tsx:110 | two positive counts draw the same badge iff they are equal or both exceed nine |
| BottomNavigation.Render | src/components/layout/BottomNavigation.tsx:75-112 | five entries in order, each highlighted iff `isActive`; the dot only on notifications; a badge only on favourites with a positive count, and its text is the count's badge label |
| BottomNavigation.RenderHighlightsAtMostOne | src/components/layout/BottomNavigation.tsx:75-92 | the rendered bar never highlights two entries |

## Left out

- A guest cart kept on the device, and a merge into the server cart at sign-in: the code has neither. It refuses signed-out mutations, and that is what is modelled.
- CartSync.RunKeepsSync: promises the sync only for reliable actions. A mutation whose answer is lost, or a sign-in without a user or without an answered fetch, can leave the view stale; `UnreliableSignInDesyncs` and `LostReplyDesyncs` show it.
- CartSync.LoginSyncs: covers the sign-in with a user and an answered cart fetch only. The other sign-in branches leave the view as it was or empty, which `UnreliableSignInDesyncs` shows can miss the stored cart.
- Persistence, the network, HTTP routing and the token check: a request arrives as the authenticated user id and its decoded body. `fetch` failing or answering an error is the boolean `ok` (or `None` for a refresh). In `CartSync` a request's fate is the `Link` parameter.
- Concurrency: the client's asynchronous calls are modelled one at a time, in order. The stale-closure lookup in `removeFromCartServer` (`cart.find`, used only for a toast) and the loading flag are not modelled.
- Toasts, console logging, translations, icons and animation.
- Exceptions thrown by the client after an error toast: the state is unchanged in either case.
- The product id in the update and remove routes arrives as text and goes through `parseInt`; the model takes the parsed number.
- Mongoose casting of non-numeric or fractional values, and Mongo ids: numbers are mathematical integers and user ids are strings. Floating-point prices are not modelled.
- The `timestamps: true` `createdAt` field: only `updatedAt`, which every save sets to the clock, is modelled.
- `ParseInt` reads an optional sign and leading decimal digits. Leading whitespace, radix prefixes and fractional parts are not modelled, because no budget option contains them.
- The gift assistant's three-second delay, its `Math.random()` confidence, the reasoning text, the style themes and the free-text fields other than those that steps 1 to 3 require. `handleInputChange` is a plain field assignment.
- The fields a gift product has beyond price, occasion, category and the two flags: no filter or score reads them.
- The product fields the client sends but does not set (category, occasion, flags) are sent as absent by `CartSync.RequestBody`. The server stores them as absent and false.
- `src/context/CartContext.tsx` as written does not close its `useEffect` block (line 80). The model reads it as the evident effect: refresh on sign-in, empty the view otherwise.
- CategoriesSection and the rest of the user interface are not part of this model.

## Findings

| source | as written | input that shows it | evidently intended | confidence | as-written member | corrected member |
|---|---|---|---|---|---|---|
| src/pages/GiftAssistantPage.tsx:348-353 | `"over-1000".split("-")` maps to `[Infinity, 1000]`, so `min` is Infinity and `price < min` rejects every product; the search then always falls back to the special gifts. The model's `Recommend` keeps this reading (`GiftRanking.OverBudgetRecommendsSpecialGifts`); `RecommendCorrected` is the intended pipeline | budget "over-1000" (the option at line 143), any product price | "over-N" keeps prices of at least N, i.e. bounds `[N, Infinity)` | high; not executed | GiftFilters.OverBudgetAsWrittenRejectsAll | GiftFilters.OverBudget |

=== FILE: bottom_navigation.dfy ===
/** The mobile bottom bar (src/components/layout/BottomNavigation.tsx): which of the five
    entries is highlighted for the current location, and the favourites badge. */
module BottomNavigation {
  import opened Wrappers

  datatype NavId = Home | Categories | Notifications | Favorites | Packages

  /** The route each entry links to. */
  function PathOf(id: NavId): (r: string)
    ensures |r| >= 1 && r[0] == '/'
    ensures r == "/" <==> id == Home
  {
    match id
    case Home => "/"
    case Categories => "/categories"
    case Notifications => "/notifications"
    case Favorites => "/favorites"
    case Packages => "/packages"
  }

  /** The entries in the order the bar shows them. */
  const NavOrder: seq<NavId> := [Home, Categories, Notifications, Favorites, Packages]

  predicate IsPrefix(p: string, s: string) {
    |p| <= |s| && s[..|p|] == p
  }

  /** `isActive`: the home entry only on "/" itself, every other entry on any location
      that starts with its path. */
  function IsActive(path: string, pathname: string): (r: bool)
    ensures path == "/" ==> (r <==> pathname == "/")
    ensures path != "/" ==> (r <==> |path| <= |pathname| && forall i :: 0 <= i < |path| ==> pathname[i] == path[i])
  {
    if path == "/" then pathname == "/" else IsPrefix(path, pathname)
  }

  /** Any location beneath an entry's path highlights it. */
  lemma SubpathIsActive(id: NavId, rest: string)
    requires id != Home
    ensures IsActive(PathOf(id), PathOf(id) + rest)
  {
    assert (PathOf(id) + rest)[..|PathOf(id)|] == PathOf(id);
  }

  /** The match is a plain prefix test, not a path-segment test: "/categoriesX" still
      highlights the categories entry. */
  lemma PrefixNotSegment()
    ensures IsActive("/categories", "/categoriesX")
    ensures !IsActive("/", "/categories")
  {
    assert "/categoriesX"[..|"/categories"|] == "/categories";
  }

  /** Past the leading slash, the entries' paths already differ in their first letter. */
  lemma SecondCharDistinguishes(a: NavId, b: NavId)
    requires a != Home && b != Home
    ensures PathOf(a)[1] == PathOf(b)[1] ==> a == b
  {
  }

  /** At most one entry is highlighted, whatever the location. */
  lemma AtMostOneActive(pathname: string, a: NavId, b: NavId)
    requires IsActive(PathOf(a), pathname) && IsActive(PathOf(b), pathname)
    ensures a == b
  {
    if a != Home && b != Home {
      assert pathname[1] == PathOf(a)[1];
      assert pathname[1] == PathOf(b)[1];
      SecondCharDistinguishes(a, b);
    }
  }

  /** The location "/" highlights the home entry and nothing else. */
  lemma RootShowsHome(id: NavId)
    ensures IsActive(PathOf(id), "/") <==> id == Home
  {
  }

  /** One entry as the bar draws it: highlighted or not, the red dot, and the badge text. */
  datatype Entry = Entry(id: NavId, active: bool, dot: bool, badge: Option<string>)

  /** The text of the favourites badge for a count, or None when no badge is drawn: it
      shows for positive counts, as the digit itself up to nine and as "9+" beyond. */
  function BadgeLabel(count: int): (r: Option<string>)
    ensures r.Some? <==> count > 0
    ensures r == Some("9+") <==> count > 9
    ensures 0 < count <= 9 ==> r.Some? && |r.value| == 1 && '1' <= r.value[0] <= '9'
  {
    if count <= 0 then None
    else if count > 9 then Some("9+")
    else Some([(('0' as int) + count) as char])
  }

  /** What a reader of the badge learns: the exact count up to nine, and "more than nine". */
  function ReadBadge(text: string): (r: Option<int>)
    ensures r.Some? ==> 1 <= r.value <= 10
  {
    if text == "9+" then Some(10)
    else if |text| == 1 && '1' <= text[0] <= '9' then Some(text[0] as int - '0' as int)
    else None
  }

  /** Reading the badge back recovers the count, capped at ten for "9+". */
  lemma BadgeRoundTrip(count: int)
    requires count > 0
    ensures BadgeLabel(count).Some?
    ensures ReadBadge(BadgeLabel(count).value) == Some(if count > 9 then 10 else count)
  {
  }

  /** Distinct counts up to nine draw distinct badges; all counts above nine draw the same. */
  lemma BadgeDistinguishesSmallCounts(m: int, n: int)
    requires m > 0 && n > 0
    ensures BadgeLabel(m) == BadgeLabel(n) <==> m == n || (m > 9 && n > 9)
  {
    BadgeRoundTrip(m);
    BadgeRoundTrip(n);
  }

  /** The bar for one location and favourites count: the five entries in order, the dot on
      notifications, the count badge on favourites only. */
  function Render(pathname: string, favoritesCount: int): (r: seq<Entry>)
    ensures |r| == |NavOrder|
    ensures forall i :: 0 <= i < |r| ==> r[i].id == NavOrder[i] && (r[i].active <==> IsActive(PathOf(NavOrder[i]), pathname))
    ensures forall i :: 0 <= i < |r| ==> (r[i].dot <==> r[i].id == Notifications)
    ensures forall i :: 0 <= i < |r| ==> (r[i].badge.Some? <==> r[i].id == Favorites && favoritesCount > 0)
    ensures forall i :: 0 <= i < |r| && r[i].id == Favorites ==> r[i].badge == BadgeLabel(favoritesCount)
  {
    seq(|NavOrder|, i requires 0 <= i < |NavOrder| =>
      var id := NavOrder[i];
      Entry(id, IsActive(PathOf(id), pathname), id == Notifications,
            if id == Favorites then BadgeLabel(favoritesCount) else None))
  }

  /** The rendered bar never highlights two entries. */
  lemma RenderHighlightsAtMostOne(pathname: string, favoritesCount: int, i: nat, j: nat)
    requires i < j < |Render(pathname, favoritesCount)|
    ensures !(Render(pathname, favoritesCount)[i].active && Render(pathname, favoritesCount)[j].active)
  {
    var r := Render(pathname, favoritesCount);
    if r[i].active {
      if r[j].active {
        AtMostOneActive(pathname, NavOrder[i], NavOrder[j]);
      }
    }
  }
}

=== FILE: cart_context.dfy ===
/** The client's cart view (src/context/CartContext.tsx): the in-memory `cart` array, the
    login guard in front of every mutation, and the `setCart` updaters applied once the
    server has answered. The server's answer is a parameter `ok` (was `response.ok` true). */
module CartContext {
  import opened Wrappers
  import opened Seqs
  import opened CartSchema

  /** The provider's state: whether a user is signed in, and the `cart` array. */
  datatype CartState = CartState(authenticated: bool, cart: seq<ViewItem>)

  /** How a mutation ended: refused for want of a login, applied, or failed at the server. */
  datatype Effect = LoginRequired | Applied | Failed

  datatype Step = Step(state: CartState, effect: Effect)

  /** The provider's initial state: signed out, empty cart. */
  const Initial: CartState := CartState(false, [])

  /** `product.quantity || 1`: a zero quantity counts as one. */
  function QtyOrOne(q: int): (r: int)
    ensures r != 0
    ensures q != 0 ==> r == q
    ensures q == 0 ==> r == 1
  {
    if q == 0 then 1 else q
  }

  predicate InView(cart: seq<ViewItem>, id: int) {
    exists i :: 0 <= i < |cart| && cart[i].id == id
  }

  predicate UniqueViewIds(cart: seq<ViewItem>) {
    forall i, j :: 0 <= i < j < |cart| ==> cart[i].id != cart[j].id
  }

  /** The add updater: every line of the product gains `product.quantity || 1` units; when
      there is none, the product is appended with that quantity. */
  function AddedToView(cart: seq<ViewItem>, product: ViewItem): (r: seq<ViewItem>)
    ensures InView(cart, product.id) ==>
      && |r| == |cart|
      && forall i :: 0 <= i < |cart| ==>
           && r[i] == cart[i].(quantity := r[i].quantity)
           && r[i].quantity == cart[i].quantity + (if cart[i].id == product.id then QtyOrOne(product.quantity) else 0)
    ensures !InView(cart, product.id) ==> r == cart + [product.(quantity := QtyOrOne(product.quantity))]
    ensures InView(r, product.id)
    ensures UniqueViewIds(cart) ==> UniqueViewIds(r)
  {
    var q := QtyOrOne(product.quantity);
    if InView(cart, product.id) then
      var r := seq(|cart|, i requires 0 <= i < |cart| =>
        if cart[i].id == product.id then cart[i].(quantity := cart[i].quantity + q) else cart[i]);
      assert InView(r, product.id) by {
        var k :| 0 <= k < |cart| && cart[k].id == product.id;
        assert r[k].id == product.id;
      }
      r
    else
      var r := cart + [product.(quantity := q)];
      assert r[|cart|].id == product.id;
      r
  }

  /** The predicate of `filter((item) => item.id !== id)`. */
  function NotId(id: int): ViewItem -> bool {
    (v: ViewItem) => v.id != id
  }

  /** The remove updater. */
  function RemovedFromView(cart: seq<ViewItem>, id: int): (r: seq<ViewItem>)
    ensures !InView(r, id)
    ensures forall i :: 0 <= i < |cart| && cart[i].id != id ==> cart[i] in r
    ensures forall i :: 0 <= i < |r| ==> r[i] in cart
    ensures !InView(cart, id) ==> r == cart
  {
    var r := Filter(cart, NotId(id));
    if !InView(cart, id) then
      forall x | x in cart ensures NotId(id)(x) {
        var k :| 0 <= k < |cart| && cart[k] == x;
      }
      FilterKeepsAll(cart, NotId(id));
      r
    else r
  }

  /** With one line per product, removing a product cuts out exactly its line and keeps the
      other lines in their order. */
  lemma RemovedFromViewSplices(cart: seq<ViewItem>, k: nat)
    requires UniqueViewIds(cart)
    requires k < |cart|
    ensures RemovedFromView(cart, cart[k].id) == cart[..k] + cart[k + 1..]
  {
    FilterSplice(cart, k, NotId(cart[k].id));
  }

  /** The update updater: lines of the product take `max(1, quantity)`, the others are kept. */
  function QuantitySetInView(cart: seq<ViewItem>, id: int, quantity: int): (r: seq<ViewItem>)
    ensures |r| == |cart|
    ensures forall i :: 0 <= i < |cart| ==> r[i] == cart[i].(quantity := r[i].quantity)
    ensures forall i :: 0 <= i < |cart| && cart[i].id != id ==> r[i] == cart[i]
    ensures forall i :: 0 <= i < |cart| && cart[i].id == id ==> r[i].quantity >= 1
    ensures quantity >= 1 ==> forall i :: 0 <= i < |cart| && cart[i].id == id ==> r[i].quantity == quantity
    ensures quantity < 1 ==> forall i :: 0 <= i < |cart| && cart[i].id == id ==> r[i].quantity == 1
  {
    seq(|cart|, i requires 0 <= i < |cart| =>
      if cart[i].id == id then cart[i].(quantity := if quantity > 1 then quantity else 1) else cart[i])
  }

  /** `addToCart`: refused when signed out; otherwise the view changes only when the
      server accepted the add. */
  function AddToCart(st: CartState, product: ViewItem, ok: bool): (r: Step)
    ensures !st.authenticated ==> r == Step(st, LoginRequired)
    ensures st.authenticated && !ok ==> r == Step(st, Failed)
    ensures st.authenticated && ok ==> r == Step(st.(cart := AddedToView(st.cart, product)), Applied)
    ensures r.effect == Applied ==> r.state == st.(cart := AddedToView(st.cart, product))
    ensures r.state.cart != st.cart ==> st.authenticated && ok
    ensures r.state.authenticated == st.authenticated
  {
    if !st.authenticated then Step(st, LoginRequired)
    else if ok then Step(st.(cart := AddedToView(st.cart, product)), Applied)
    else Step(st, Failed)
  }

  /** `removeFromCart`. */
  function RemoveFromCart(st: CartState, id: int, ok: bool): (r: Step)
    ensures !st.authenticated ==> r == Step(st, LoginRequired)
    ensures st.authenticated && !ok ==> r == Step(st, Failed)
    ensures st.authenticated && ok ==> r == Step(st.(cart := RemovedFromView(st.cart, id)), Applied)
    ensures r.effect == Applied ==> r.state == st.(cart := RemovedFromView(st.cart, id))
    ensures r.state.cart != st.cart ==> st.authenticated && ok
    ensures r.state.authenticated == st.authenticated
  {
    if !st.authenticated then Step(st, LoginRequired)
    else if ok then Step(st.(cart := RemovedFromView(st.cart, id)), Applied)
    else Step(st, Failed)
  }

  /** `updateQuantity`: a quantity of zero or less is a remove of the product; otherwise the
      server is asked to overwrite the quantity. */
  function UpdateQuantity(st: CartState, id: int, quantity: int, ok: bool): (r: Step)
    ensures !st.authenticated ==> r == Step(st, LoginRequired)
    ensures quantity <= 0 ==> r == RemoveFromCart(st, id, ok)
    ensures st.authenticated && !ok ==> r == Step(st, Failed)
    ensures st.authenticated && ok && quantity > 0 ==> r == Step(st.(cart := QuantitySetInView(st.cart, id, quantity)), Applied)
    ensures quantity > 0 && r.effect == Applied ==> r.state == st.(cart := QuantitySetInView(st.cart, id, quantity))
    ensures r.state.cart != st.cart ==> st.authenticated && ok
    ensures r.state.authenticated == st.authenticated
  {
    if !st.authenticated then Step(st, LoginRequired)
    else if quantity <= 0 then RemoveFromCart(st, id, ok)
    else if ok then Step(st.(cart := QuantitySetInView(st.cart, id, quantity)), Applied)
    else Step(st, Failed)
  }

  /** `clearCart`. */
  function ClearCart(st: CartState, ok: bool): (r: Step)
    ensures !st.authenticated ==> r == Step(st, LoginRequired)
    ensures st.authenticated && !ok ==> r == Step(st, Failed)
    ensures st.authenticated && ok ==> r == Step(st.(cart := []), Applied)
    ensures r.effect == Applied ==> r.state == st.(cart := [])
    ensures r.state.cart != st.cart ==> st.authenticated && ok
    ensures r.state.authenticated == st.authenticated
  {
    if !st.authenticated then Step(st, LoginRequired)
    else if ok then Step(st.(cart := []), Applied)
    else Step(st, Failed)
  }

  /** `refreshCart`: signed out it does nothing; a fetched cart replaces the view, a failed
      fetch (`None`) leaves it. */
  function RefreshCart(st: CartState, fetched: Option<seq<ViewItem>>): (r: CartState)
    ensures !st.authenticated ==> r == st
    ensures st.authenticated && fetched.Some? ==> r == st.(cart := fetched.value)
    ensures fetched.None? ==> r == st
  {
    if st.authenticated && fetched.Some? then st.(cart := fetched.value) else st
  }

  /** The effect run when the login state changes: signed in with a user it refreshes,
      otherwise the view is emptied. */
  function AuthChanged(st: CartState, authenticated: bool, hasUser: bool, fetched: Option<seq<ViewItem>>): (r: CartState)
    ensures r.authenticated == authenticated
    ensures !(authenticated && hasUser) ==> r.cart == []
    ensures authenticated && hasUser && fetched.Some? ==> r.cart == fetched.value
    ensures authenticated && hasUser && fetched.None? ==> r.cart == st.cart
  {
    if authenticated && hasUser then RefreshCart(st.(authenticated := true), fetched)
    else CartState(authenticated, [])
  }

  /** `cartCount`, recomputed from the view. */
  function CartCount(st: CartState): int { ViewCount(st.cart) }

  /** `cartTotal`, recomputed from the view. */
  function CartTotal(st: CartState): int { ViewTotal(st.cart) }
}

=== FILE: cart_controller.dfy ===
/** The server-side cart store (back-end/controllers/cartController.js): each handler is a
    pure function from the store (a map from user id to that user's cart) to a new store
    and a response. */
module CartController {
  import opened Wrappers
  import opened Seqs
  import opened CartSchema

  type Store = map<UserId, Cart>

  /** The `productData` of an add request; every field may be missing. */
  datatype ProductData = ProductData(
    id: Option<int>,
    nameEn: Option<string>,
    nameAr: Option<string>,
    price: Option<int>,
    imageUrl: Option<string>,
    categoryId: Option<string>,
    occasionId: Option<string>,
    isBestSeller: Option<bool>,
    isSpecialGift: Option<bool>)

  /** 400, 404 and 500. */
  datatype Failure = BadRequest | NotFound | ServerError

  datatype Response =
    | CartBody(cart: seq<ViewItem>, cartTotal: int, cartCount: int)
    | TotalsBody(cartTotal: int, cartCount: int)
    | CountBody(count: int)
    | Error(failure: Failure)

  datatype Outcome = Outcome(store: Store, response: Response)

  /** The lines of a user's cart; a user without a cart has none. */
  function ItemsOf(s: Store, u: UserId): seq<CartItem> {
    if u in s then s[u].items else []
  }

  /** What the store keeps true: each cart is filed under its own user, passes the schema,
      and holds at most one line per product. */
  predicate StoreInv(s: Store) {
    forall u :: u in s ==> s[u].userId == u && AllValid(s[u].items) && UniqueIds(s[u].items)
  }

  /** `productData.id` is truthy: present and non-zero. */
  predicate HasId(pd: ProductData) {
    pd.id.Some? && pd.id.value != 0
  }

  /** The line a first add of `pd` creates, with the schema's defaults for the flags; None
      when the price is missing, which the required Number field rejects at save. */
  function NewLine(pd: ProductData, q: int): (r: Option<CartItem>)
    requires HasId(pd)
    ensures r.Some? <==> pd.price.Some?
    ensures r.Some? ==>
      && r.value.productId == pd.id.value
      && r.value.quantity == q
      && r.value.productData.price == pd.price.value
      && (pd.nameEn.Some? ==> r.value.productData.nameEn == pd.nameEn.value)
      && (pd.nameAr.Some? ==> r.value.productData.nameAr == pd.nameAr.value)
      && (pd.imageUrl.Some? ==> r.value.productData.imageUrl == pd.imageUrl.value)
      && r.value.productData.categoryId == pd.categoryId
      && r.value.productData.occasionId == pd.occasionId
      && (r.value.productData.isBestSeller <==> pd.isBestSeller == Some(true))
      && (r.value.productData.isSpecialGift <==> pd.isSpecialGift == Some(true))
      && (ValidItem(r.value) <==> q >= 1 && pd.nameEn.GetOr("") != "" && pd.nameAr.GetOr("") != "" && pd.imageUrl.GetOr("") != "")
  {
    if pd.price.None? then None
    else
      Some(CartItem(
        pd.id.value,
        Snapshot(pd.nameEn.GetOr(""), pd.nameAr.GetOr(""), pd.price.value, pd.imageUrl.GetOr(""),
                 pd.categoryId, pd.occasionId, pd.isBestSeller.GetOr(false), pd.isSpecialGift.GetOr(false)),
        q))
  }

  /** The totals every successful mutation reports. */
  function Totals(items: seq<CartItem>): Response {
    TotalsBody(CartTotal(items), CartCount(items))
  }

  /** `cart.save()` followed by the totals response: the whole document is validated, and
      only a document that passes is stored, stamped with `now`. */
  function Persist(s: Store, u: UserId, items: seq<CartItem>, now: int): Outcome {
    if AllValid(items) then Outcome(s[u := Cart(u, items, now)], Totals(items))
    else Outcome(s, Error(ServerError))
  }

  /** The store after a successful save of `u`'s cart: only that entry differs, it holds
      `items`, and its `updatedAt` is `now`. */
  predicate SavedAs(s: Store, s': Store, u: UserId, items: seq<CartItem>, now: int) {
    s' == s[u := Cart(u, items, now)]
  }

  /** GET /cart. */
  function GetCart(s: Store, u: UserId, now: int): (r: Outcome)
    ensures r.response.CartBody?
    ensures u !in s ==> SavedAs(s, r.store, u, [], now) && r.response == CartBody([], 0, 0)
    ensures u in s ==> r.store == s
    ensures Sync(r.response.cart, ItemsOf(s, u))
    ensures forall i :: 0 <= i < |r.response.cart| ==>
      && r.response.cart[i].nameEn == ItemsOf(s, u)[i].productData.nameEn
      && r.response.cart[i].nameAr == ItemsOf(s, u)[i].productData.nameAr
      && r.response.cart[i].imageUrl == ItemsOf(s, u)[i].productData.imageUrl
    ensures r.response.cartTotal == ViewTotal(r.response.cart)
    ensures r.response.cartCount == ViewCount(r.response.cart)
    ensures StoreInv(s) ==> StoreInv(r.store)
  {
    if u !in s then
      Outcome(s[u := Cart(u, [], now)], CartBody([], 0, 0))
    else
      var view := Format(s[u].items);
      Outcome(s, CartBody(view, ViewTotal(view), ViewCount(view)))
  }

  /** POST /cart/add. */
  function AddToCart(s: Store, u: UserId, body: Option<ProductData>, quantity: Option<int>, now: int): (r: Outcome)
    ensures body.None? || !HasId(body.value) ==> r == Outcome(s, Error(BadRequest))
    ensures quantity.GetOr(DefaultQuantity) < 1 ==> r == Outcome(s, Error(BadRequest))
    ensures r.response.Error? ==> r.store == s
    ensures !r.response.Error? ==>
      && SavedAs(s, r.store, u, ItemsOf(r.store, u), now)
      && r.response == Totals(ItemsOf(r.store, u))
    ensures StoreInv(s) ==> StoreInv(r.store)
  {
    var q := quantity.GetOr(DefaultQuantity);
    if body.None? || !HasId(body.value) then Outcome(s, Error(BadRequest))
    else if q < 1 then Outcome(s, Error(BadRequest))
    else
      var items := ItemsOf(s, u);
      match IndexOf(items, body.value.id.value)
      case Some(k) =>
        Persist(s, u, items[k := items[k].(quantity := items[k].quantity + q)], now)
      case None =>
        match NewLine(body.value, q)
        case None => Outcome(s, Error(ServerError))
        case Some(line) => Persist(s, u, items + [line], now)
  }

  /** PUT /cart/update/:productId. A missing quantity passes the `< 1` test (a comparison
      with undefined is false) and is then refused by the required validator at save. */
  function UpdateCartItem(s: Store, u: UserId, productId: int, quantity: Option<int>, now: int): (r: Outcome)
    ensures quantity.Some? && quantity.value < 1 ==> r == Outcome(s, Error(BadRequest))
    ensures (quantity.None? || quantity.value >= 1) && u !in s ==> r == Outcome(s, Error(NotFound))
    ensures (quantity.None? || quantity.value >= 1) && !HasProduct(ItemsOf(s, u), productId) ==> r == Outcome(s, Error(NotFound))
    ensures quantity.None? && HasProduct(ItemsOf(s, u), productId) ==> r == Outcome(s, Error(ServerError))
    ensures r.response.Error? ==> r.store == s
    ensures !r.response.Error? ==>
      && SavedAs(s, r.store, u, ItemsOf(r.store, u), now)
      && r.response == Totals(ItemsOf(r.store, u))
    ensures StoreInv(s) ==> StoreInv(r.store)
  {
    if quantity.Some? && quantity.value < 1 then Outcome(s, Error(BadRequest))
    else if u !in s then Outcome(s, Error(NotFound))
    else
      var items := s[u].items;
      match IndexOf(items, productId)
      case None => Outcome(s, Error(NotFound))
      case Some(k) =>
        if quantity.None? then Outcome(s, Error(ServerError))
        else Persist(s, u, items[k := items[k].(quantity := quantity.value)], now)
  }

  /** DELETE /cart/remove/:productId. */
  function RemoveFromCart(s: Store, u: UserId, productId: int, now: int): (r: Outcome)
    ensures u !in s ==> r == Outcome(s, Error(NotFound))
    ensures !HasProduct(ItemsOf(s, u), productId) ==> r == Outcome(s, Error(NotFound))
    ensures r.response.Error? ==> r.store == s
    ensures !r.response.Error? ==>
      && SavedAs(s, r.store, u, Without(ItemsOf(s, u), productId), now)
      && r.response == Totals(ItemsOf(r.store, u))
      && !HasProduct(ItemsOf(r.store, u), productId)
    ensures StoreInv(s) ==> StoreInv(r.store)
  {
    if u !in s then Outcome(s, Error(NotFound))
    else
      var items := s[u].items;
      var kept := Without(items, productId);
      assert !HasProduct(items, productId) ==> kept == items by {
        if !HasProduct(items, productId) {
          WithoutAbsent(items, productId);
        }
      }
      assert StoreInv(s) ==> UniqueIds(kept) by {
        if StoreInv(s) {
          WithoutUnique(items, productId);
        }
      }
      if |kept| == |items| then
        FilterSameLength(items, OtherThan(productId));
        Outcome(s, Error(NotFound))
      else
        Persist(s, u, kept, now)
  }

  /** DELETE /cart/clear. */
  function ClearCart(s: Store, u: UserId, now: int): (r: Outcome)
    ensures u !in s ==> r == Outcome(s, Error(NotFound))
    ensures u in s ==> SavedAs(s, r.store, u, [], now) && r.response == TotalsBody(0, 0)
    ensures StoreInv(s) && u in s && s[u].items == [] ==> r.store == s[u := s[u].(updatedAt := now)]
    ensures StoreInv(s) ==> StoreInv(r.store)
  {
    if u !in s then Outcome(s, Error(NotFound))
    else Outcome(s[u := Cart(u, [], now)], TotalsBody(0, 0))
  }

  /** GET /cart/count: never creates a cart. */
  function GetCartCount(s: Store, u: UserId): (r: Outcome)
    ensures r.store == s
    ensures u !in s ==> r.response == CountBody(0)
    ensures u in s ==> r.response == CountBody(CartCount(s[u].items))
    ensures StoreInv(s) ==> r.response.count >= 0
  {
    if u !in s then Outcome(s, CountBody(0))
    else
      var items := s[u].items;
      assert StoreInv(s) ==> CartCount(items) >= 0 by {
        if StoreInv(s) {
          CountCoversLines(items);
        }
      }
      Outcome(s, CountBody(CartCount(items)))
  }

  /** A product whose first add can be saved: a price and non-empty required strings. */
  predicate Addable(pd: ProductData) {
    && pd.price.Some?
    && pd.nameEn.GetOr("") != ""
    && pd.nameAr.GetOr("") != ""
    && pd.imageUrl.GetOr("") != ""
  }

  /** When an add is accepted: the request is well formed, and either the product already has
      a line or its snapshot passes the schema. */
  lemma AddToCartAccepts(s: Store, u: UserId, body: Option<ProductData>, quantity: Option<int>, now: int)
    requires StoreInv(s)
    ensures !AddToCart(s, u, body, quantity, now).response.Error? <==>
      && body.Some? && HasId(body.value)
      && quantity.GetOr(DefaultQuantity) >= 1
      && (HasProduct(ItemsOf(s, u), body.value.id.value) || Addable(body.value))
  {
    if body.Some? && HasId(body.value) && quantity.GetOr(DefaultQuantity) >= 1 {
      var items := ItemsOf(s, u);
      var q := quantity.GetOr(DefaultQuantity);
      match IndexOf(items, body.value.id.value)
      case Some(k) =>
        assert AllValid(items[k := items[k].(quantity := items[k].quantity + q)]);
      case None =>
        if body.value.price.Some? {
          var line := NewLine(body.value, q).value;
          assert (items + [line])[|items|] == line;
          assert ValidItem(line) ==> AllValid(items + [line]);
        }
    }
  }

  /** An accepted add is an upsert: an existing line of the product gains `q` units and keeps
      its snapshot, every other line is untouched; otherwise one new line is appended. */
  lemma {:induction false} AddToCartUpserts(s: Store, u: UserId, pd: ProductData, quantity: Option<int>, now: int)
    requires StoreInv(s)
    requires !AddToCart(s, u, Some(pd), quantity, now).response.Error?
    ensures HasId(pd) && quantity.GetOr(DefaultQuantity) >= 1
    ensures !HasProduct(ItemsOf(s, u), pd.id.value) ==> NewLine(pd, quantity.GetOr(DefaultQuantity)).Some?
    ensures
      var before := ItemsOf(s, u);
      var after := ItemsOf(AddToCart(s, u, Some(pd), quantity, now).store, u);
      HasProduct(before, pd.id.value) ==>
        && |after| == |before|
        && forall i :: 0 <= i < |before| ==>
             && after[i].productId == before[i].productId
             && after[i].productData == before[i].productData
             && after[i].quantity == before[i].quantity +
                  (if before[i].productId == pd.id.value then quantity.GetOr(DefaultQuantity) else 0)
    ensures
      var before := ItemsOf(s, u);
      var after := ItemsOf(AddToCart(s, u, Some(pd), quantity, now).store, u);
      !HasProduct(before, pd.id.value) ==> after == before + [NewLine(pd, quantity.GetOr(DefaultQuantity)).value]
    ensures
      var before := ItemsOf(s, u);
      var after := ItemsOf(AddToCart(s, u, Some(pd), quantity, now).store, u);
      && QtyOf(after, pd.id.value) == QtyOf(before, pd.id.value) + quantity.GetOr(DefaultQuantity)
      && (forall j :: j != pd.id.value ==> QtyOf(after, j) == QtyOf(before, j))
      && CartCount(after) == CartCount(before) + quantity.GetOr(DefaultQuantity)
  {
    var q := quantity.GetOr(DefaultQuantity);
    var id := pd.id.value;
    var before := ItemsOf(s, u);
    var after := ItemsOf(AddToCart(s, u, Some(pd), quantity, now).store, u);
    match IndexOf(before, id)
    case Some(k) =>
      var bumped := before[k].(quantity := before[k].quantity + q);
      assert after == before[k := bumped];
      SumUpdate(before, k, bumped, QuantityFor(id));
      SumUpdate(before, k, bumped, Quantity);
      forall j | j != id ensures QtyOf(after, j) == QtyOf(before, j) {
        SumUpdate(before, k, bumped, QuantityFor(j));
      }
    case None =>
      var line := NewLine(pd, q).value;
      assert after == before + [line];
      SumAppend(before, [line], QuantityFor(id));
      SumAppend(before, [line], Quantity);
      forall j | j != id ensures QtyOf(after, j) == QtyOf(before, j) {
        SumAppend(before, [line], QuantityFor(j));
      }
  }

  function Sum(qs: seq<int>): int {
    if |qs| == 0 then 0 else qs[0] + Sum(qs[1..])
  }

  /** The store after adding `pd` once for each quantity in `qs`, in order. */
  function AddEach(s: Store, u: UserId, pd: ProductData, qs: seq<int>, now: int): Store
    decreases |qs|
  {
    if |qs| == 0 then s
    else AddEach(AddToCart(s, u, Some(pd), Some(qs[0]), now).store, u, pd, qs[1..], now)
  }

  /** Successive adds of one product accumulate: its quantity grows by the sum of the added
      quantities, it ends with exactly one line, and no other product changes. */
  lemma {:induction false} AddEachAccumulates(s: Store, u: UserId, pd: ProductData, qs: seq<int>, now: int)
    requires StoreInv(s)
    requires HasId(pd) && Addable(pd)
    requires forall i :: 0 <= i < |qs| ==> qs[i] >= 1
    ensures StoreInv(AddEach(s, u, pd, qs, now))
    ensures QtyOf(ItemsOf(AddEach(s, u, pd, qs, now), u), pd.id.value) == QtyOf(ItemsOf(s, u), pd.id.value) + Sum(qs)
    ensures forall j :: j != pd.id.value ==> QtyOf(ItemsOf(AddEach(s, u, pd, qs, now), u), j) == QtyOf(ItemsOf(s, u), j)
    ensures |qs| > 0 ==> HasProduct(ItemsOf(AddEach(s, u, pd, qs, now), u), pd.id.value)
    ensures |qs| > 0 ==> UniqueIds(ItemsOf(AddEach(s, u, pd, qs, now), u))
    decreases |qs|
  {
    if |qs| > 0 {
      var s1 := AddToCart(s, u, Some(pd), Some(qs[0]), now).store;
      AddToCartAccepts(s, u, Some(pd), Some(qs[0]), now);
      AddToCartUpserts(s, u, pd, Some(qs[0]), now);
      var after1 := ItemsOf(s1, u);
      assert HasProduct(after1, pd.id.value) by {
        var before := ItemsOf(s, u);
        if HasProduct(before, pd.id.value) {
          var k :| 0 <= k < |before| && before[k].productId == pd.id.value;
          assert after1[k].productId == pd.id.value;
        } else {
          assert after1[|before|].productId == pd.id.value;
        }
      }
      AddEachAccumulates(s1, u, pd, qs[1..], now);
      if |qs[1..]| == 0 {
        assert AddEach(s1, u, pd, qs[1..], now) == s1;
      }
    }
  }

  /** An update is accepted exactly when the quantity is at least 1 and the product has a line;
      it then overwrites that line's quantity and nothing else. */
  lemma {:induction false} UpdateCartItemOverwrites(s: Store, u: UserId, productId: int, quantity: int, now: int)
    requires StoreInv(s)
    ensures !UpdateCartItem(s, u, productId, Some(quantity), now).response.Error? <==>
      quantity >= 1 && HasProduct(ItemsOf(s, u), productId)
    ensures
      var before := ItemsOf(s, u);
      var after := ItemsOf(UpdateCartItem(s, u, productId, Some(quantity), now).store, u);
      !UpdateCartItem(s, u, productId, Some(quantity), now).response.Error? ==>
        && |after| == |before|
        && (forall i :: 0 <= i < |before| ==>
             && after[i].productId == before[i].productId
             && after[i].productData == before[i].productData
             && after[i].quantity == (if before[i].productId == productId then quantity else before[i].quantity))
        && QtyOf(after, productId) == quantity
        && (forall j :: j != productId ==> QtyOf(after, j) == QtyOf(before, j))
        && CartCount(after) == CartCount(before) - QtyOf(before, productId) + quantity
  {
    var before := ItemsOf(s, u);
    if quantity >= 1 && u in s {
      match IndexOf(before, productId)
      case None =>
      case Some(k) =>
        var set' := before[k].(quantity := quantity);
        assert AllValid(before[k := set']);
        var after := ItemsOf(UpdateCartItem(s, u, productId, Some(quantity), now).store, u);
        assert after == before[k := set'];
        QtyOfUnique(before, k, productId);
        SumUpdate(before, k, set', QuantityFor(productId));
        SumUpdate(before, k, set', Quantity);
        forall j | j != productId ensures QtyOf(after, j) == QtyOf(before, j) {
          SumUpdate(before, k, set', QuantityFor(j));
        }
    }
  }

  /** A remove is accepted exactly when the product has a line; that line is cut out, the
      others keep their order, and the count drops by its quantity. */
  lemma {:induction false} RemoveFromCartCutsLine(s: Store, u: UserId, productId: int, now: int)
    requires StoreInv(s)
    ensures !RemoveFromCart(s, u, productId, now).response.Error? <==> HasProduct(ItemsOf(s, u), productId)
    ensures
      var before := ItemsOf(s, u);
      var after := ItemsOf(RemoveFromCart(s, u, productId, now).store, u);
      HasProduct(before, productId) ==>
        var k := IndexOf(before, productId).value;
        && after == before[..k] + before[k + 1..]
        && CartCount(after) == CartCount(before) - before[k].quantity
        && CartTotal(after) == CartTotal(before) - before[k].productData.price * before[k].quantity
        && (forall j :: j != productId ==> QtyOf(after, j) == QtyOf(before, j))
  {
    var before := ItemsOf(s, u);
    if HasProduct(before, productId) {
      var k := IndexOf(before, productId).value;
      var pre, suf := before[..k], before[k + 1..];
      WithoutSplices(before, k);
      assert before == pre + [before[k]] + suf;
      WithoutUnique(before, productId);
      assert |Without(before, productId)| < |before|;
      forall i | 0 <= i < |pre + suf| ensures ValidItem((pre + suf)[i]) {
        if i < k {
          assert (pre + suf)[i] == before[i];
        } else {
          assert (pre + suf)[i] == before[i + 1];
        }
      }
      SumAppend(pre + [before[k]], suf, Quantity);
      SumAppend(pre, [before[k]], Quantity);
      SumAppend(pre, suf, Quantity);
      SumAppend(pre + [before[k]], suf, LineTotal);
      SumAppend(pre, [before[k]], LineTotal);
      SumAppend(pre, suf, LineTotal);
      forall j | j != productId ensures QtyOf(pre + suf, j) == QtyOf(before, j) {
        SumAppend(pre + [before[k]], suf, QuantityFor(j));
        SumAppend(pre, [before[k]], QuantityFor(j));
        SumAppend(pre, suf, QuantityFor(j));
      }
    }
  }
}

=== FILE: cart_schema.dfy ===
/** The cart document (back-end/models/Cart.js): items with a product snapshot, the
    validation a save runs, and the sums every response reports. */
module CartSchema {
  import opened Wrappers
  import opened Seqs

  /** A user's identity; the store is keyed by it, which is what `unique: true` guarantees. */
  type UserId = string

  /** The default quantity of a line, used when a request names none. */
  const DefaultQuantity: int := 1

  /** The product attributes copied into a line when it is first added. */
  datatype Snapshot = Snapshot(
    nameEn: string,
    nameAr: string,
    price: int,
    imageUrl: string,
    categoryId: Option<string>,
    occasionId: Option<string>,
    isBestSeller: bool,
    isSpecialGift: bool)

  datatype CartItem = CartItem(productId: int, productData: Snapshot, quantity: int)

  datatype Cart = Cart(userId: UserId, items: seq<CartItem>, updatedAt: int)

  /** A cart line in the shape the API returns and the client keeps. */
  datatype ViewItem = ViewItem(id: int, nameEn: string, nameAr: string, price: int, imageUrl: string, quantity: int)

  /** What the schema's validators accept for one line: the required strings are non-empty
      (a required string validator rejects "") and the quantity is at least 1. */
  predicate ValidItem(it: CartItem) {
    && it.productData.nameEn != ""
    && it.productData.nameAr != ""
    && it.productData.imageUrl != ""
    && it.quantity >= 1
  }

  predicate AllValid(items: seq<CartItem>) {
    forall i :: 0 <= i < |items| ==> ValidItem(items[i])
  }

  /** At most one line per product. */
  predicate UniqueIds(items: seq<CartItem>) {
    forall i, j :: 0 <= i < j < |items| ==> items[i].productId != items[j].productId
  }

  predicate HasProduct(items: seq<CartItem>, id: int) {
    exists i :: 0 <= i < |items| && items[i].productId == id
  }

  function Quantity(it: CartItem): int { it.quantity }

  function LineTotal(it: CartItem): int { it.productData.price * it.quantity }

  /** `cartCount`: the sum of the quantities. */
  function CartCount(items: seq<CartItem>): int { SumOf(items, Quantity) }

  /** `cartTotal`: the sum of price times quantity. */
  function CartTotal(items: seq<CartItem>): int { SumOf(items, LineTotal) }

  /** The quantity carried by the lines of one product. */
  function QuantityFor(id: int): CartItem -> int {
    (it: CartItem) => if it.productId == id then it.quantity else 0
  }

  function QtyOf(items: seq<CartItem>, id: int): int { SumOf(items, QuantityFor(id)) }

  function ViewQuantity(v: ViewItem): int { v.quantity }

  function ViewLineTotal(v: ViewItem): int { v.price * v.quantity }

  /** `cartCount` over lines in the API shape. */
  function ViewCount(view: seq<ViewItem>): int { SumOf(view, ViewQuantity) }

  /** `cartTotal` over lines in the API shape. */
  function ViewTotal(view: seq<ViewItem>): int { SumOf(view, ViewLineTotal) }

  /** The predicate of `filter(item => item.productId !== id)`. */
  function OtherThan(id: int): CartItem -> bool {
    (it: CartItem) => it.productId != id
  }

  /** The lines of every product but `id`, in their original order. */
  function Without(items: seq<CartItem>, id: int): seq<CartItem> { Filter(items, OtherThan(id)) }

  /** `findIndex(item => item.productId === id)`, with -1 as None. */
  function IndexOf(items: seq<CartItem>, id: int): (r: Option<nat>)
    ensures r.Some? ==> r.value < |items| && items[r.value].productId == id
    ensures r.Some? ==> forall k :: 0 <= k < r.value ==> items[k].productId != id
    ensures r.None? ==> !HasProduct(items, id)
  {
    if |items| == 0 then None
    else if items[0].productId == id then Some(0)
    else match IndexOf(items[1..], id)
      case None => None
      case Some(k) => Some(k + 1)
  }

  /** The per-line formatting `getCart` applies before responding. */
  function Format(items: seq<CartItem>): (r: seq<ViewItem>)
    ensures Sync(r, items)
    ensures forall i :: 0 <= i < |r| ==>
      && r[i].nameEn == items[i].productData.nameEn
      && r[i].nameAr == items[i].productData.nameAr
      && r[i].imageUrl == items[i].productData.imageUrl
  {
    seq(|items|, i requires 0 <= i < |items| =>
      ViewItem(items[i].productId, items[i].productData.nameEn, items[i].productData.nameAr,
               items[i].productData.price, items[i].productData.imageUrl, items[i].quantity))
  }

  /** A client view and a stored cart agree: same lines, in the same order, with the same
      product ids, unit prices and quantities. */
  predicate Sync(view: seq<ViewItem>, items: seq<CartItem>) {
    && |view| == |items|
    && forall i :: 0 <= i < |view| ==>
         && view[i].id == items[i].productId
         && view[i].price == items[i].productData.price
         && view[i].quantity == items[i].quantity
  }

  /** A product with no line contributes nothing. */
  lemma {:induction false} QtyOfAbsent(items: seq<CartItem>, id: int)
    requires !HasProduct(items, id)
    ensures QtyOf(items, id) == 0
  {
    if |items| > 0 {
      assert !HasProduct(items[1..], id) by {
        forall k | 0 <= k < |items[1..]| ensures items[1..][k].productId != id {
          assert items[1..][k] == items[k + 1];
        }
      }
      QtyOfAbsent(items[1..], id);
    }
  }

  /** With at most one line per product, the quantity of a product is its line's quantity. */
  lemma {:induction false} QtyOfUnique(items: seq<CartItem>, i: nat, id: int)
    requires UniqueIds(items)
    requires i < |items| && items[i].productId == id
    ensures QtyOf(items, id) == items[i].quantity
  {
    if i == 0 {
      assert !HasProduct(items[1..], id) by {
        forall k | 0 <= k < |items[1..]| ensures items[1..][k].productId != id {
          assert items[1..][k] == items[k + 1];
        }
      }
      QtyOfAbsent(items[1..], id);
    } else {
      assert items[1..][i - 1] == items[i];
      QtyOfUnique(items[1..], i - 1, id);
    }
  }

  /** In a valid cart every line holds at least one unit, so `cartCount` is at least the
      number of lines. */
  lemma {:induction false} CountCoversLines(items: seq<CartItem>)
    requires AllValid(items)
    ensures CartCount(items) >= |items|
  {
    if |items| > 0 {
      assert ValidItem(items[0]);
      CountCoversLines(items[1..]);
    }
  }

  /** Removing lines never introduces a duplicate product. */
  lemma {:induction false} WithoutUnique(items: seq<CartItem>, id: int)
    requires UniqueIds(items)
    ensures UniqueIds(Without(items, id))
  {
    if |items| > 0 {
      var rest := items[1..];
      assert UniqueIds(rest) by {
        forall i, j | 0 <= i < j < |rest| ensures rest[i].productId != rest[j].productId {
          assert rest[i] == items[i + 1] && rest[j] == items[j + 1];
        }
      }
      WithoutUnique(rest, id);
      var tail := Without(rest, id);
      forall j | 0 <= j < |tail| ensures tail[j].productId != items[0].productId {
        assert tail[j] in rest;
        var k :| 0 <= k < |rest| && rest[k] == tail[j];
        assert rest[k] == items[k + 1];
      }
      assert Without(items, id) == (if OtherThan(id)(items[0]) then [items[0]] else []) + tail;
    }
  }

  /** Removing a product that has no line changes nothing. */
  lemma WithoutAbsent(items: seq<CartItem>, id: int)
    requires !HasProduct(items, id)
    ensures Without(items, id) == items
  {
    forall x | x in items ensures OtherThan(id)(x) {
      var k :| 0 <= k < |items| && items[k] == x;
    }
    FilterKeepsAll(items, OtherThan(id));
  }

  /** With at most one line per product, removing a product cuts exactly its line out and
      keeps the others in their order. */
  lemma WithoutSplices(items: seq<CartItem>, k: nat)
    requires UniqueIds(items)
    requires k < |items|
    ensures Without(items, items[k].productId) == items[..k] + items[k + 1..]
  {
    FilterSplice(items, k, OtherThan(items[k].productId));
  }
}

=== FILE: cart_sync.dfy ===
/** The client view composed with the server store it talks to: each client mutation sends
    its request to the server handler and applies its updater only if that handler answered
    with a success. The view refines the store: once in sync, it stays in sync. */
module CartSync {
  import opened Wrappers
  import opened Seqs
  import opened CartSchema
  import S = CartController
  import C = CartContext

  /** The store, the signed-in user it is addressed as, and that user's client. */
  datatype System = System(store: S.Store, user: UserId, client: C.CartState)

  /** The view mirrors the signed-in user's stored cart; signed out, the view is empty. */
  predicate Consistent(sys: System) {
    && S.StoreInv(sys.store)
    && (sys.client.authenticated ==> Sync(sys.client.cart, S.ItemsOf(sys.store, sys.user)))
    && (!sys.client.authenticated ==> sys.client.cart == [])
  }

  /** The body `addToCartServer` posts: the product as `productData`. */
  function RequestBody(product: ViewItem): S.ProductData {
    S.ProductData(Some(product.id), Some(product.nameEn), Some(product.nameAr), Some(product.price),
                  Some(product.imageUrl), None, None, None, None)
  }

  /** How one request fared on the network: answered, lost before the server saw it, or
      handled by the server with the answer lost on the way back (the `fetch` rejects). */
  datatype Link = Delivered | RequestLost | ReplyLost

  /** The store after a call over `link`. */
  function StoreAfter(store: S.Store, o: S.Outcome, link: Link): S.Store {
    if link == RequestLost then store else o.store
  }

  /** What the client learns: `response.ok`, which it sees only for a delivered answer. */
  function Answered(o: S.Outcome, link: Link): bool {
    link == Delivered && !o.response.Error?
  }

  function Add(sys: System, product: ViewItem, link: Link, now: int): System {
    if !sys.client.authenticated then sys
    else
      var o := S.AddToCart(sys.store, sys.user, Some(RequestBody(product)), Some(C.QtyOrOne(product.quantity)), now);
      System(StoreAfter(sys.store, o, link), sys.user, C.AddToCart(sys.client, product, Answered(o, link)).state)
  }

  function Remove(sys: System, id: int, link: Link, now: int): System {
    if !sys.client.authenticated then sys
    else
      var o := S.RemoveFromCart(sys.store, sys.user, id, now);
      System(StoreAfter(sys.store, o, link), sys.user, C.RemoveFromCart(sys.client, id, Answered(o, link)).state)
  }

  function Update(sys: System, id: int, quantity: int, link: Link, now: int): System {
    if !sys.client.authenticated then sys
    else if quantity <= 0 then Remove(sys, id, link, now)
    else
      var o := S.UpdateCartItem(sys.store, sys.user, id, Some(quantity), now);
      System(StoreAfter(sys.store, o, link), sys.user, C.UpdateQuantity(sys.client, id, quantity, Answered(o, link)).state)
  }

  function Clear(sys: System, link: Link, now: int): System {
    if !sys.client.authenticated then sys
    else
      var o := S.ClearCart(sys.store, sys.user, now);
      System(StoreAfter(sys.store, o, link), sys.user, C.ClearCart(sys.client, Answered(o, link)).state)
  }

  /** `refreshCart` against GET /cart; without an answer the view is left as it was. */
  function Refresh(sys: System, link: Link, now: int): System {
    if !sys.client.authenticated then sys
    else
      var o := S.GetCart(sys.store, sys.user, now);
      var fetched := if link == Delivered then Some(o.response.cart) else None;
      System(StoreAfter(sys.store, o, link), sys.user, C.RefreshCart(sys.client, fetched))
  }

  /** The sign-in effect: with a user it runs the refresh against `user`'s cart; without
      one it empties the view. */
  function SignIn(sys: System, user: UserId, hasUser: bool, link: Link, now: int): System {
    if !hasUser then System(sys.store, user, C.AuthChanged(sys.client, true, false, None))
    else
      var o := S.GetCart(sys.store, user, now);
      var fetched := if link == Delivered then Some(o.response.cart) else None;
      System(StoreAfter(sys.store, o, link), user, C.AuthChanged(sys.client, true, true, fetched))
  }

  function Logout(sys: System): System {
    sys.(client := C.AuthChanged(sys.client, false, false, None))
  }

  /** The remove updater and the server's filter keep a synced pair synced. */
  lemma {:induction false} FilterKeepsSync(view: seq<ViewItem>, items: seq<CartItem>, id: int)
    requires Sync(view, items)
    ensures Sync(C.RemovedFromView(view, id), Without(items, id))
  {
    if |view| > 0 {
      assert Sync(view[1..], items[1..]) by {
        forall i | 0 <= i < |view[1..]|
          ensures view[1..][i].id == items[1..][i].productId
          ensures view[1..][i].price == items[1..][i].productData.price
          ensures view[1..][i].quantity == items[1..][i].quantity
        {
          assert view[1..][i] == view[i + 1] && items[1..][i] == items[i + 1];
        }
      }
      FilterKeepsSync(view[1..], items[1..], id);
    }
  }

  /** A synced view reports the stored cart's count and total. */
  lemma SyncedTotals(view: seq<ViewItem>, items: seq<CartItem>)
    requires Sync(view, items)
    ensures ViewCount(view) == CartCount(items)
    ensures ViewTotal(view) == CartTotal(items)
  {
    SumPointwise(view, ViewQuantity, items, Quantity);
    SumPointwise(view, ViewLineTotal, items, LineTotal);
  }

  /** In a consistent system the provider's `cartCount` and `cartTotal` are the server's. */
  lemma ShownTotalsMatchServer(sys: System)
    requires Consistent(sys)
    requires sys.client.authenticated
    ensures C.CartCount(sys.client) == CartCount(S.ItemsOf(sys.store, sys.user))
    ensures C.CartTotal(sys.client) == CartTotal(S.ItemsOf(sys.store, sys.user))
  {
    SyncedTotals(sys.client.cart, S.ItemsOf(sys.store, sys.user));
  }

  /** An add keeps view and store in step unless the server's answer is lost. */
  lemma AddKeepsSync(sys: System, product: ViewItem, link: Link, now: int)
    requires Consistent(sys)
    requires link != ReplyLost
    ensures Consistent(Add(sys, product, link, now))
  {
    if sys.client.authenticated && link == Delivered {
      var pd := RequestBody(product);
      var q := C.QtyOrOne(product.quantity);
      var o := S.AddToCart(sys.store, sys.user, Some(pd), Some(q), now);
      if !o.response.Error? {
        S.AddToCartUpserts(sys.store, sys.user, pd, Some(q), now);
        var before := S.ItemsOf(sys.store, sys.user);
        var after := S.ItemsOf(o.store, sys.user);
        var view := sys.client.cart;
        var view' := C.AddedToView(view, product);
        assert HasProduct(before, product.id) <==> C.InView(view, product.id) by {
          if HasProduct(before, product.id) {
            var k :| 0 <= k < |before| && before[k].productId == product.id;
            assert view[k].id == product.id;
          }
          if C.InView(view, product.id) {
            var k :| 0 <= k < |view| && view[k].id == product.id;
            assert before[k].productId == product.id;
          }
        }
        if !HasProduct(before, product.id) {
          assert after[|before|] == S.NewLine(pd, q).value;
          assert view'[|view|] == product.(quantity := q);
        }
        assert Sync(view', after);
      }
    }
  }

  lemma RemoveKeepsSync(sys: System, id: int, link: Link, now: int)
    requires Consistent(sys)
    requires link != ReplyLost
    ensures Consistent(Remove(sys, id, link, now))
  {
    if sys.client.authenticated && link == Delivered {
      FilterKeepsSync(sys.client.cart, S.ItemsOf(sys.store, sys.user), id);
    }
  }

  lemma UpdateKeepsSync(sys: System, id: int, quantity: int, link: Link, now: int)
    requires Consistent(sys)
    requires link != ReplyLost
    ensures Consistent(Update(sys, id, quantity, link, now))
  {
    if sys.client.authenticated {
      if quantity <= 0 {
        RemoveKeepsSync(sys, id, link, now);
      } else if link == Delivered {
        S.UpdateCartItemOverwrites(sys.store, sys.user, id, quantity, now);
      }
    }
  }

  lemma ClearKeepsSync(sys: System, link: Link, now: int)
    requires Consistent(sys)
    requires link != ReplyLost
    ensures Consistent(Clear(sys, link, now))
  {
  }

  /** A refresh never breaks the sync, even unanswered: GET /cart at most creates the empty
      cart the view already mirrors. */
  lemma RefreshKeepsSync(sys: System, link: Link, now: int)
    requires Consistent(sys)
    ensures Consistent(Refresh(sys, link, now))
  {
  }

  /** An answered refresh brings any signed-in view back in step with a valid store. */
  lemma RefreshSyncs(sys: System, now: int)
    requires S.StoreInv(sys.store)
    requires sys.client.authenticated
    ensures Consistent(Refresh(sys, Delivered, now))
  {
  }

  /** A sign-in with a user whose cart fetch is answered leaves the view mirroring that
      user's stored cart, whatever the view held before. */
  lemma LoginSyncs(sys: System, user: UserId, now: int)
    requires S.StoreInv(sys.store)
    ensures Consistent(SignIn(sys, user, true, Delivered, now))
    ensures SignIn(sys, user, true, Delivered, now).client.authenticated
  {
  }

  lemma LogoutEmpties(sys: System)
    requires S.StoreInv(sys.store)
    ensures Consistent(Logout(sys))
    ensures Logout(sys).client.cart == []
  {
  }

  /** One user action, with how its request fared. */
  datatype Action =
    | AddItem(product: ViewItem, link: Link)
    | RemoveItem(id: int, link: Link)
    | UpdateItem(id: int, quantity: int, link: Link)
    | ClearItems(link: Link)
    | RefreshItems(link: Link)
    | SignInAs(user: UserId, hasUser: bool, link: Link)
    | SignOut

  function Apply(sys: System, a: Action, now: int): System {
    match a
    case AddItem(p, link) => Add(sys, p, link, now)
    case RemoveItem(id, link) => Remove(sys, id, link, now)
    case UpdateItem(id, q, link) => Update(sys, id, q, link, now)
    case ClearItems(link) => Clear(sys, link, now)
    case RefreshItems(link) => Refresh(sys, link, now)
    case SignInAs(u, hasUser, link) => SignIn(sys, u, hasUser, link, now)
    case SignOut => Logout(sys)
  }

  /** The actions the sync survives: no mutation's answer is lost, and every sign-in has a
      user and an answered cart fetch. */
  predicate Reliable(a: Action) {
    match a
    case AddItem(_, link) => link != ReplyLost
    case RemoveItem(_, link) => link != ReplyLost
    case UpdateItem(_, _, link) => link != ReplyLost
    case ClearItems(link) => link != ReplyLost
    case RefreshItems(_) => true
    case SignInAs(_, hasUser, link) => hasUser && link == Delivered
    case SignOut => true
  }

  /** The system after the actions in order, the i-th at time `start + i`. */
  function Run(sys: System, actions: seq<Action>, start: int): System
    decreases |actions|
  {
    if |actions| == 0 then sys
    else Run(Apply(sys, actions[0], start), actions[1..], start + 1)
  }

  /** Any sequence of reliable actions keeps the view in step with the store, so the totals
      the client shows are the server's. */
  lemma {:induction false} RunKeepsSync(sys: System, actions: seq<Action>, start: int)
    requires Consistent(sys)
    requires forall i :: 0 <= i < |actions| ==> Reliable(actions[i])
    ensures Consistent(Run(sys, actions, start))
    decreases |actions|
  {
    if |actions| > 0 {
      var a := actions[0];
      assert Reliable(a);
      match a {
        case AddItem(p, link) => AddKeepsSync(sys, p, link, start);
        case RemoveItem(id, link) => RemoveKeepsSync(sys, id, link, start);
        case UpdateItem(id, q, link) => UpdateKeepsSync(sys, id, q, link, start);
        case ClearItems(link) => ClearKeepsSync(sys, link, start);
        case RefreshItems(link) => RefreshKeepsSync(sys, link, start);
        case SignInAs(u, _, _) => LoginSyncs(sys, u, start);
        case SignOut => LogoutEmpties(sys);
      }
      assert forall i :: 0 <= i < |actions[1..]| ==> actions[1..][i] == actions[i + 1];
      RunKeepsSync(Apply(sys, a, start), actions[1..], start + 1);
    }
  }

  /** The provider starts signed out with an empty view, so reliable use from the start keeps
      it in step with any valid store. */
  lemma RunFromInitial(store: S.Store, user: UserId, actions: seq<Action>)
    requires S.StoreInv(store)
    requires forall i :: 0 <= i < |actions| ==> Reliable(actions[i])
    ensures Consistent(Run(System(store, user, C.Initial), actions, 0))
  {
    RunKeepsSync(System(store, user, C.Initial), actions, 0);
  }

  // ------------------------------------------------ where the sync breaks

  /** A signed-out system facing a user with one stored line. */
  function OneLineStore(): S.Store {
    map["u" := Cart("u", [CartItem(1, Snapshot("Rose", "Rose", 50, "rose.png", None, None, false, false), 1)], 0)]
  }

  /** Each unreliable sign-in leaves a signed-in view that misses the stored line: a fetch
      that is lost either way keeps the stale (empty) view, and a sign-in without a user
      empties it. */
  lemma UnreliableSignInDesyncs()
    ensures Consistent(System(OneLineStore(), "u", C.Initial))
    ensures !Consistent(SignIn(System(OneLineStore(), "u", C.Initial), "u", true, RequestLost, 1))
    ensures !Consistent(SignIn(System(OneLineStore(), "u", C.Initial), "u", true, ReplyLost, 1))
    ensures !Consistent(SignIn(System(OneLineStore(), "u", C.Initial), "u", false, Delivered, 1))
  {
    var sys := System(OneLineStore(), "u", C.Initial);
    assert S.ItemsOf(sys.store, "u") == OneLineStore()["u"].items;
  }

  /** A lost answer to a successful add leaves the server one line ahead of the view. */
  lemma LostReplyDesyncs()
    ensures Consistent(System(map[], "u", C.CartState(true, [])))
    ensures !Consistent(Add(System(map[], "u", C.CartState(true, [])), ViewItem(1, "Rose", "Rose", 50, "rose.png", 1), ReplyLost, 1))
  {
    var sys := System(map[], "u", C.CartState(true, []));
    var product := ViewItem(1, "Rose", "Rose", 50, "rose.png", 1);
    var o := S.AddToCart(sys.store, "u", Some(RequestBody(product)), Some(1), 1);
    S.AddToCartAccepts(sys.store, "u", Some(RequestBody(product)), Some(1), 1);
    assert !o.response.Error?;
    S.AddToCartUpserts(sys.store, "u", RequestBody(product), Some(1), 1);
    assert |S.ItemsOf(o.store, "u")| == 1;
  }
}

=== FILE: gift_filters.dfy ===
/** The product filters of `analyzeGifts` (src/pages/GiftAssistantPage.tsx): budget, occasion
    and interest category. Prices are integers in whole currency units, the
    unit the budget options are written in. */
module GiftFilters {
  import opened Wrappers
  import opened Seqs
  import opened GiftWizard

  /** A catalogue product, reduced to what the recommendation logic reads. */
  datatype Product = Product(
    id: int,
    price: int,
    occasionId: Option<string>,
    categoryId: Option<string>,
    isBestSeller: bool,
    isSpecialGift: bool)

  /** JavaScript truthiness of an optional string: present and non-empty. */
  predicate Present(o: Option<string>) {
    o.Some? && o.value != ""
  }

  // ---------------------------------------------------------------- budget

  /** A budget bound as `parseInt` and the "under"/"over" keywords produce it. `NaN` also
      stands for `undefined`: every comparison with either is false. */
  datatype Bound = Finite(n: int) | Infinity | NaN

  /** `s.split(sep)`. */
  function Split(s: string, sep: char): (r: seq<string>)
    ensures |r| >= 1
    decreases |s|
  {
    if |s| == 0 then [""]
    else
      var rest := Split(s[1..], sep);
      if s[0] == sep then [""] + rest else [[s[0]] + rest[0]] + rest[1..]
  }

  /** `parts.join(sep)`, the inverse of `Split`. */
  function Join(parts: seq<string>, sep: char): string
    requires |parts| >= 1
  {
    if |parts| == 1 then parts[0] else parts[0] + [sep] + Join(parts[1..], sep)
  }

  /** Splitting and joining again gives back the string, and no piece holds the separator. */
  lemma {:induction false} SplitJoin(s: string, sep: char)
    ensures Join(Split(s, sep), sep) == s
    ensures forall i :: 0 <= i < |Split(s, sep)| ==> sep !in Split(s, sep)[i]
    decreases |s|
  {
    if |s| > 0 {
      var rest := Split(s[1..], sep);
      SplitJoin(s[1..], sep);
      assert s == [s[0]] + s[1..];
      if s[0] != sep {
        var parts := [[s[0]] + rest[0]] + rest[1..];
        assert parts[1..] == rest[1..];
        if |rest| > 1 {
          assert Join(rest, sep) == rest[0] + [sep] + Join(rest[1..], sep);
        }
      } else {
        assert ([""] + rest)[1..] == rest;
      }
    }
  }

  /** A piece without the separator splits to itself. */
  lemma {:induction false} SplitPlain(s: string, sep: char)
    requires sep !in s
    ensures Split(s, sep) == [s]
    decreases |s|
  {
    if |s| > 0 {
      SplitPlain(s[1..], sep);
      assert [s[0]] + s[1..] == s;
    }
  }

  /** Splitting `a + sep + b`, for `a` without the separator, gives `a` and the pieces of `b`. */
  lemma {:induction false} SplitAfterPiece(a: string, b: string, sep: char)
    requires sep !in a
    ensures Split(a + [sep] + b, sep) == [a] + Split(b, sep)
    decreases |a|
  {
    if |a| == 0 {
      assert a + [sep] + b == [sep] + b;
      assert ([sep] + b)[1..] == b;
    } else {
      assert (a + [sep] + b)[1..] == a[1..] + [sep] + b;
      SplitAfterPiece(a[1..], b, sep);
      assert [a[0]] + a[1..] == a;
    }
  }

  predicate IsDigit(c: char) {
    '0' <= c <= '9'
  }

  /** The length of the run of decimal digits at the start of `s`. */
  function DigitRun(s: string): (n: nat)
    ensures n <= |s|
    ensures forall i :: 0 <= i < n ==> IsDigit(s[i])
    ensures n < |s| ==> !IsDigit(s[n])
  {
    if |s| == 0 || !IsDigit(s[0]) then 0 else 1 + DigitRun(s[1..])
  }

  /** The value of a string of decimal digits, most significant first. */
  function DigitsValue(ds: string): nat
  {
    if |ds| == 0 then 0
    else DigitsValue(ds[..|ds| - 1]) * 10 + (if IsDigit(ds[|ds| - 1]) then (ds[|ds| - 1] as int) - ('0' as int) else 0)
  }

  /** `parseInt(s)`: an optional sign, then the leading digits; no digit gives NaN. */
  function ParseInt(s: string): Bound
  {
    var negative := |s| > 0 && s[0] == '-';
    var body := if |s| > 0 && (s[0] == '-' || s[0] == '+') then s[1..] else s;
    var n := DigitRun(body);
    if n == 0 then NaN
    else Finite(if negative then -(DigitsValue(body[..n]) as int) else DigitsValue(body[..n]))
  }

  /** The decimal rendering of a natural number, as the budget options spell their limits. */
  function Decimal(n: nat): (r: string)
    ensures |r| >= 1
    ensures forall i :: 0 <= i < |r| ==> IsDigit(r[i])
  {
    var d := ['0' + (n % 10) as char];
    if n < 10 then d else Decimal(n / 10) + d
  }

  /** `parseInt` reads back what `Decimal` writes. */
  lemma {:induction false} ParseDecimal(n: nat)
    ensures ParseInt(Decimal(n)) == Finite(n)
  {
    DecimalValue(n);
    var s := Decimal(n);
    assert DigitRun(s) == |s|;
    assert s[..|s|] == s;
  }

  lemma {:induction false} DecimalValue(n: nat)
    ensures DigitsValue(Decimal(n)) == n
  {
    var d := ['0' + (n % 10) as char];
    if n >= 10 {
      DecimalValue(n / 10);
      var s := Decimal(n / 10) + d;
      assert s[..|s| - 1] == Decimal(n / 10);
    }
  }

  /** One piece of a split budget, as the `map` in `analyzeGifts` reads it. */
  function PieceBound(p: string): Bound {
    if p == "under" then Finite(0)
    else if p == "over" then Infinity
    else ParseInt(p)
  }

  /** The `[min, max]` destructuring of the mapped pieces; a missing piece is `undefined`. */
  function BoundsAsWritten(budget: string): (Bound, Bound) {
    var parts := Split(budget, '-');
    (PieceBound(parts[0]), if |parts| > 1 then PieceBound(parts[1]) else NaN)
  }

  /** `price < bound`. */
  predicate Below(price: int, b: Bound) {
    match b
    case Finite(n) => price < n
    case Infinity => true
    case NaN => false
  }

  /** `price > bound`. */
  predicate Above(price: int, b: Bound) {
    match b
    case Finite(n) => price > n
    case Infinity => false
    case NaN => false
  }

  /** The budget test as written: "over-N" maps "over" to the minimum, so `min` is Infinity. */
  predicate WithinBudgetAsWritten(budget: string, price: int) {
    var (lo, hi) := BoundsAsWritten(budget);
    budget == "" || budget == "unlimited" || !(Below(price, lo) || Above(price, hi))
  }

  /** The bounds as the budget options mean them: "over-N" is `[N, Infinity)`; every other
      budget is read as written. */
  function BudgetBounds(budget: string): (Bound, Bound) {
    var parts := Split(budget, '-');
    if parts[0] == "over" then (if |parts| > 1 then PieceBound(parts[1]) else NaN, Infinity)
    else BoundsAsWritten(budget)
  }

  /** The budget test with "over-N" read as the option's label means it. */
  predicate WithinBudget(budget: string, price: int) {
    var (lo, hi) := BudgetBounds(budget);
    budget == "" || budget == "unlimited" || !(Below(price, lo) || Above(price, hi))
  }

  lemma DecimalHasNoDash(n: nat)
    ensures '-' !in Decimal(n)
    ensures Decimal(n) != "under" && Decimal(n) != "over" && Decimal(n) != "unlimited"
  {
    var s := Decimal(n);
    forall i | 0 <= i < |s| ensures s[i] != '-' {
      assert IsDigit(s[i]);
    }
    assert IsDigit(s[0]);
  }

  /** "under-N" keeps exactly the prices from 0 to N. */
  lemma UnderBudget(n: nat, price: int)
    ensures WithinBudget("under-" + Decimal(n), price) <==> 0 <= price <= n
    ensures WithinBudgetAsWritten("under-" + Decimal(n), price) <==> 0 <= price <= n
  {
    DecimalHasNoDash(n);
    SplitAfterPiece("under", Decimal(n), '-');
    SplitPlain(Decimal(n), '-');
    ParseDecimal(n);
    var budget := "under-" + Decimal(n);
    assert budget == "under" + ['-'] + Decimal(n);
    assert Split(budget, '-') == ["under", Decimal(n)];
    assert BudgetBounds(budget) == BoundsAsWritten(budget) == (Finite(0), Finite(n));
    assert budget[2] != "unlimited"[2];
  }

  /** "A-B" keeps exactly the prices from A to B. */
  lemma RangeBudget(a: nat, b: nat, price: int)
    ensures WithinBudget(Decimal(a) + "-" + Decimal(b), price) <==> a <= price <= b
    ensures WithinBudgetAsWritten(Decimal(a) + "-" + Decimal(b), price) <==> a <= price <= b
  {
    DecimalHasNoDash(a);
    DecimalHasNoDash(b);
    SplitAfterPiece(Decimal(a), Decimal(b), '-');
    SplitPlain(Decimal(b), '-');
    ParseDecimal(a);
    ParseDecimal(b);
  }

  /** "over-N" as intended keeps exactly the prices of at least N. */
  lemma OverBudget(n: nat, price: int)
    ensures WithinBudget("over-" + Decimal(n), price) <==> price >= n
  {
    DecimalHasNoDash(n);
    SplitAfterPiece("over", Decimal(n), '-');
    SplitPlain(Decimal(n), '-');
    ParseDecimal(n);
    assert "over-" + Decimal(n) == "over" + ['-'] + Decimal(n);
  }

  /** As written, "over-N" rejects every price: `min` is Infinity and no price is above it. */
  lemma OverBudgetAsWrittenRejectsAll(n: nat, price: int)
    ensures !WithinBudgetAsWritten("over-" + Decimal(n), price)
  {
    DecimalHasNoDash(n);
    SplitAfterPiece("over", Decimal(n), '-');
    SplitPlain(Decimal(n), '-');
    assert "over-" + Decimal(n) == "over" + ['-'] + Decimal(n);
  }

  // ---------------------------------------------------------------- occasion

  /** The form's occasion values and the product occasion ids they select. */
  const OccasionMap: map<string, string> := map[
    "birthday" := "birthdays",
    "anniversary" := "anniversary",
    "wedding" := "wedding",
    "graduation" := "graduation",
    "valentine" := "valentines-day",
    "mother-day" := "mothers-day",
    "eid" := "eid-adha",
    "thank-you" := "thank-you"]

  /** The occasion test: a product with an occasion id must carry the mapped one. */
  predicate OccasionAllows(occasion: string, p: Product) {
    occasion == "" || !Present(p.occasionId) || (occasion in OccasionMap && p.occasionId.value == OccasionMap[occasion])
  }

  /** An occasion the map does not know (christmas, father-day, apology, congratulations)
      excludes every product that has an occasion id and keeps every product that has none. */
  lemma UnmappedOccasionExcludesTagged(occasion: string, p: Product)
    requires occasion != "" && occasion !in OccasionMap
    ensures OccasionAllows(occasion, p) <==> !Present(p.occasionId)
  {
  }

  // ---------------------------------------------------------------- interests

  /** Interests and the product categories they select; other interests select nothing. */
  const InterestCategoryMap: map<string, seq<string>> := map[
    "art" := ["vases", "plants"],
    "beauty" := ["beauty-care", "personal-care"],
    "jewelry" := ["jewelry"],
    "home-decor" := ["vases", "plants"],
    "wellness" := ["personal-care"],
    "fashion" := ["jewelry", "perfumes"]]

  function CategoriesOf(interest: string): seq<string> {
    if interest in InterestCategoryMap then InterestCategoryMap[interest] else []
  }

  /** `interests.flatMap(i => interestCategoryMap[i] || [])`. */
  function RelevantCategories(interests: seq<string>): (r: seq<string>)
    ensures forall c :: c in r <==> exists i :: 0 <= i < |interests| && c in CategoriesOf(interests[i])
  {
    if |interests| == 0 then []
    else
      CategoriesOf(interests[0]) + RelevantCategories(interests[1..])
  }

  /** The interest test: applies only when the interests select some category and the
      product has a category id. */
  predicate InterestAllows(interests: seq<string>, p: Product) {
    var relevant := RelevantCategories(interests);
    |interests| == 0 || |relevant| == 0 || !Present(p.categoryId) || p.categoryId.value in relevant
  }

  /** Interests that select no category filter nothing. */
  lemma {:induction false} UnmappedInterestsKeepAll(interests: seq<string>, p: Product)
    requires forall i :: 0 <= i < |interests| ==> interests[i] !in InterestCategoryMap
    ensures RelevantCategories(interests) == []
    ensures InterestAllows(interests, p)
  {
    if |interests| > 0 {
      assert forall i :: 0 <= i < |interests[1..]| ==> interests[1..][i] == interests[i + 1];
      UnmappedInterestsKeepAll(interests[1..], p);
    }
  }

  // ---------------------------------------------------------------- all filters

  /** The three tests of the `allProducts.filter` callback, as written. */
  predicate Matches(f: FormData, p: Product) {
    WithinBudgetAsWritten(f.budget, p.price) && OccasionAllows(f.occasion, p) && InterestAllows(f.interests, p)
  }

  /** The same tests with the corrected reading of "over-N". */
  predicate MatchesCorrected(f: FormData, p: Product) {
    WithinBudget(f.budget, p.price) && OccasionAllows(f.occasion, p) && InterestAllows(f.interests, p)
  }

  function MatchesForm(f: FormData): Product -> bool {
    (p: Product) => Matches(f, p)
  }

  function MatchesCorrectedForm(f: FormData): Product -> bool {
    (p: Product) => MatchesCorrected(f, p)
  }

  /** The products that pass every filter, in catalogue order. */
  function Matching(all: seq<Product>, f: FormData): (r: seq<Product>)
    ensures forall i :: 0 <= i < |r| ==> r[i] in all && Matches(f, r[i])
    ensures forall i :: 0 <= i < |all| && Matches(f, all[i]) ==> all[i] in r
  {
    Filter(all, MatchesForm(f))
  }

  /** The products that pass the corrected filters, in catalogue order. */
  function MatchingCorrected(all: seq<Product>, f: FormData): (r: seq<Product>)
    ensures forall i :: 0 <= i < |r| ==> r[i] in all && MatchesCorrected(f, r[i])
    ensures forall i :: 0 <= i < |all| && MatchesCorrected(f, all[i]) ==> all[i] in r
  {
    Filter(all, MatchesCorrectedForm(f))
  }

  /** Both filters are `filter`s: the matches of a catalogue are the matches of its parts,
      in catalogue order. */
  lemma MatchingAppend(a: seq<Product>, b: seq<Product>, f: FormData)
    ensures Matching(a + b, f) == Matching(a, f) + Matching(b, f)
    ensures MatchingCorrected(a + b, f) == MatchingCorrected(a, f) + MatchingCorrected(b, f)
  {
    FilterAppend(a, b, MatchesForm(f));
    FilterAppend(a, b, MatchesCorrectedForm(f));
  }

  /** A single product is kept once when it passes, and dropped otherwise. */
  lemma MatchingSingle(p: Product, f: FormData)
    ensures Matching([p], f) == if Matches(f, p) then [p] else []
    ensures MatchingCorrected([p], f) == if MatchesCorrected(f, p) then [p] else []
  {
  }

  /** The two readings differ only on budgets whose first piece is "over". */
  lemma ReadingsAgreeOffOver(f: FormData, p: Product)
    requires Split(f.budget, '-')[0] != "over"
    ensures Matches(f, p) <==> MatchesCorrected(f, p)
  {
  }

  /** As written, an "over-N" budget lets no product through. */
  lemma OverBudgetMatchesNothing(all: seq<Product>, f: FormData, n: nat)
    requires f.budget == "over-" + Decimal(n)
    ensures Matching(all, f) == []
  {
    forall x | x in all ensures !MatchesForm(f)(x) {
      OverBudgetAsWrittenRejectsAll(n, x.price);
    }
    FilterDropsAll(all, MatchesForm(f));
  }

  /** Corrected, an "over-N" budget keeps exactly the products priced at least N that pass
      the other two tests. */
  lemma OverBudgetCorrectedMatches(f: FormData, n: nat, p: Product)
    requires f.budget == "over-" + Decimal(n)
    ensures MatchesCorrected(f, p) <==> p.price >= n && OccasionAllows(f.occasion, p) && InterestAllows(f.interests, p)
  {
    OverBudget(n, p.price);
  }
}

=== FILE: gift_ranking.dfy ===
/** The last part of `analyzeGifts` (src/pages/GiftAssistantPage.tsx): fall back to the
    special gifts when nothing matches, sort by relevance score, keep the first twelve. */
module GiftRanking {
  import opened Seqs
  import opened GiftWizard
  import opened GiftFilters

  const MaxRecommendations: nat := 12

  /** The relevance score: 2 for a special gift plus 1 for a bestseller. */
  function Score(p: Product): (r: int)
    ensures 0 <= r <= 3
    ensures r >= 2 <==> p.isSpecialGift
    ensures r == 1 || r == 3 <==> p.isBestSeller
  {
    (if p.isSpecialGift then 2 else 0) + (if p.isBestSeller then 1 else 0)
  }

  function IsSpecial(p: Product): bool { p.isSpecialGift }

  predicate SortedByScore(s: seq<Product>) {
    forall i, j :: 0 <= i < j < |s| ==> Score(s[i]) >= Score(s[j])
  }

  /** The products of score `k`, in their original order. */
  function Group(ps: seq<Product>, k: int): seq<Product> {
    if |ps| == 0 then [] else (if Score(ps[0]) == k then [ps[0]] else []) + Group(ps[1..], k)
  }

  /** The stable sort `sort((a, b) => score(b) - score(a))` performs: the products of score 3,
      then 2, then 1, then 0, each group in its original order. */
  function RankByScore(ps: seq<Product>): (r: seq<Product>)
    ensures |r| == |ps|
  {
    GroupsCover(ps);
    Group(ps, 3) + (Group(ps, 2) + (Group(ps, 1) + Group(ps, 0)))
  }

  /** Every product falls in exactly one of the four groups. */
  lemma {:induction false} GroupsCover(ps: seq<Product>)
    ensures |Group(ps, 3)| + |Group(ps, 2)| + |Group(ps, 1)| + |Group(ps, 0)| == |ps|
  {
    if |ps| > 0 {
      GroupsCover(ps[1..]);
    }
  }

  lemma {:induction false} GroupScores(ps: seq<Product>, k: int)
    ensures forall i :: 0 <= i < |Group(ps, k)| ==> Score(Group(ps, k)[i]) == k
  {
    if |ps| > 0 {
      GroupScores(ps[1..], k);
    }
  }

  lemma {:induction false} GroupAppend(a: seq<Product>, b: seq<Product>, k: int)
    ensures Group(a + b, k) == Group(a, k) + Group(b, k)
  {
    if |a| == 0 {
      assert a + b == b;
    } else {
      assert (a + b)[1..] == a[1..] + b;
      GroupAppend(a[1..], b, k);
    }
  }

  /** Grouping a group again keeps it whole or empties it. */
  lemma {:induction false} GroupOfGroup(ps: seq<Product>, j: int, k: int)
    ensures Group(Group(ps, j), k) == if j == k then Group(ps, k) else []
  {
    if |ps| > 0 {
      var head := if Score(ps[0]) == j then [ps[0]] else [];
      GroupAppend(head, Group(ps[1..], j), k);
      GroupOfGroup(ps[1..], j, k);
    }
  }

  /** No product has a score outside 0..3. */
  lemma {:induction false} GroupOutOfRange(ps: seq<Product>, k: int)
    requires !(0 <= k <= 3)
    ensures Group(ps, k) == []
  {
    if |ps| > 0 {
      GroupOutOfRange(ps[1..], k);
    }
  }

  lemma SortedConcat(a: seq<Product>, b: seq<Product>, k: int)
    requires SortedByScore(a) && SortedByScore(b)
    requires forall i :: 0 <= i < |a| ==> Score(a[i]) >= k
    requires forall j :: 0 <= j < |b| ==> Score(b[j]) <= k
    ensures SortedByScore(a + b)
  {
    forall i, j | 0 <= i < j < |a + b| ensures Score((a + b)[i]) >= Score((a + b)[j]) {
      if j < |a| {
        assert (a + b)[i] == a[i] && (a + b)[j] == a[j];
      } else if i >= |a| {
        assert (a + b)[i] == b[i - |a|] && (a + b)[j] == b[j - |a|];
      } else {
        assert (a + b)[i] == a[i] && (a + b)[j] == b[j - |a|];
      }
    }
  }

  /** The ranking is ordered by non-increasing score. */
  lemma RankIsSorted(ps: seq<Product>)
    ensures SortedByScore(RankByScore(ps))
  {
    var b3, b2, b1, b0 := Group(ps, 3), Group(ps, 2), Group(ps, 1), Group(ps, 0);
    GroupScores(ps, 3);
    GroupScores(ps, 2);
    GroupScores(ps, 1);
    GroupScores(ps, 0);
    SortedConcat(b1, b0, 1);
    SortedConcat(b2, b1 + b0, 2);
    SortedConcat(b3, b2 + (b1 + b0), 3);
  }

  /** The head of a non-empty list goes to its own score's group. */
  lemma GroupStep(ps: seq<Product>, k: int)
    requires |ps| > 0
    ensures multiset(Group(ps, k)) ==
      (if Score(ps[0]) == k then multiset{ps[0]} else multiset{}) + multiset(Group(ps[1..], k))
  {
  }

  /** Together the four groups hold every product exactly as often as the input does. */
  lemma {:induction false} GroupsPartition(ps: seq<Product>)
    ensures multiset(Group(ps, 3)) + multiset(Group(ps, 2)) + multiset(Group(ps, 1)) + multiset(Group(ps, 0)) == multiset(ps)
  {
    if |ps| > 0 {
      var rest := ps[1..];
      GroupsPartition(rest);
      GroupStep(ps, 3);
      GroupStep(ps, 2);
      GroupStep(ps, 1);
      GroupStep(ps, 0);
      assert ps == [ps[0]] + rest;
      assert multiset(ps) == multiset{ps[0]} + multiset(rest);
    }
  }

  /** The ranking holds the same products with the same multiplicities. */
  lemma RankIsPermutation(ps: seq<Product>)
    ensures multiset(RankByScore(ps)) == multiset(ps)
  {
    GroupsPartition(ps);
  }

  /** The ranking is stable: within every score, products keep their original order. */
  lemma RankIsStable(ps: seq<Product>, k: int)
    ensures Group(RankByScore(ps), k) == Group(ps, k)
  {
    var b3, b2, b1, b0 := Group(ps, 3), Group(ps, 2), Group(ps, 1), Group(ps, 0);
    GroupAppend(b1, b0, k);
    GroupAppend(b2, b1 + b0, k);
    GroupAppend(b3, b2 + (b1 + b0), k);
    GroupOfGroup(ps, 3, k);
    GroupOfGroup(ps, 2, k);
    GroupOfGroup(ps, 1, k);
    GroupOfGroup(ps, 0, k);
    if !(0 <= k <= 3) {
      GroupOutOfRange(ps, k);
    }
  }

  /** Lines 395-397: the matching products, or every special gift of the catalogue when none
      match. */
  function Fallback(all: seq<Product>, matching: seq<Product>): (r: seq<Product>)
    ensures |matching| > 0 ==> r == matching
    ensures |matching| == 0 ==> forall x :: x in r ==> x.isSpecialGift && x in all
    ensures |matching| == 0 ==> forall i :: 0 <= i < |all| && all[i].isSpecialGift ==> all[i] in r
  {
    if |matching| > 0 then matching else Filter(all, IsSpecial)
  }

  /** With no match, the special gifts of a catalogue are those of its parts, in catalogue
      order, each kept once. */
  lemma FallbackAppend(a: seq<Product>, b: seq<Product>)
    ensures Fallback(a + b, []) == Fallback(a, []) + Fallback(b, [])
  {
    FilterAppend(a, b, IsSpecial);
  }

  lemma FallbackSingle(p: Product)
    ensures Fallback([p], []) == if p.isSpecialGift then [p] else []
  {
  }

  /** The candidates `analyzeGifts` ranks. */
  function Candidates(all: seq<Product>, f: FormData): seq<Product> {
    Fallback(all, Matching(all, f))
  }

  /** The candidates under the corrected reading of "over-N". */
  function CandidatesCorrected(all: seq<Product>, f: FormData): seq<Product> {
    Fallback(all, MatchingCorrected(all, f))
  }

  function Take(s: seq<Product>, n: nat): (r: seq<Product>)
    ensures |r| == if |s| < n then |s| else n
    ensures r == s[..|r|]
  {
    if |s| <= n then s else s[..n]
  }

  /** `sort(...).slice(0, 12)`: the first twelve of the ranked candidates. */
  function Cut(candidates: seq<Product>): (r: seq<Product>)
    ensures |r| == if |candidates| < MaxRecommendations then |candidates| else MaxRecommendations
    ensures SortedByScore(r)
    ensures forall i :: 0 <= i < |r| ==> r[i] == RankByScore(candidates)[i]
    ensures forall i :: 0 <= i < |r| ==> r[i] in candidates
  {
    RankKeepsCandidates(candidates);
    Take(RankByScore(candidates), MaxRecommendations)
  }

  /** `analyzeGifts`'s recommendations as the page computes them. */
  function Recommend(all: seq<Product>, f: FormData): (r: seq<Product>)
    ensures |r| == if |Candidates(all, f)| < MaxRecommendations then |Candidates(all, f)| else MaxRecommendations
    ensures forall i :: 0 <= i < |r| ==> r[i] == RankByScore(Candidates(all, f))[i]
    ensures SortedByScore(r)
    ensures forall i :: 0 <= i < |r| ==> r[i] in all
  {
    Cut(Candidates(all, f))
  }

  /** The recommendations under the corrected reading of "over-N". */
  function RecommendCorrected(all: seq<Product>, f: FormData): (r: seq<Product>)
    ensures |r| == if |CandidatesCorrected(all, f)| < MaxRecommendations then |CandidatesCorrected(all, f)| else MaxRecommendations
    ensures forall i :: 0 <= i < |r| ==> r[i] == RankByScore(CandidatesCorrected(all, f))[i]
    ensures SortedByScore(r)
    ensures forall i :: 0 <= i < |r| ==> r[i] in all
  {
    Cut(CandidatesCorrected(all, f))
  }

  /** When nothing matches, every recommendation is a special gift from the catalogue. */
  lemma RecommendFallback(all: seq<Product>, f: FormData)
    requires |Matching(all, f)| == 0
    ensures forall i :: 0 <= i < |Recommend(all, f)| ==> Recommend(all, f)[i].isSpecialGift && Recommend(all, f)[i] in all
  {
  }

  /** The consequence of the "over-N" budget as written: the page always shows the first
      twelve ranked special gifts, whatever the catalogue's prices. */
  lemma OverBudgetRecommendsSpecialGifts(all: seq<Product>, f: FormData, n: nat)
    requires f.budget == "over-" + Decimal(n)
    ensures Recommend(all, f) == Cut(Filter(all, IsSpecial))
    ensures forall i :: 0 <= i < |Recommend(all, f)| ==> Recommend(all, f)[i].isSpecialGift
  {
    OverBudgetMatchesNothing(all, f, n);
  }

  /** What the cut needs of the ranking: it is sorted, as long as its input, and draws only
      from it. */
  lemma RankKeepsCandidates(ps: seq<Product>)
    ensures |RankByScore(ps)| == |ps|
    ensures SortedByScore(RankByScore(ps))
    ensures forall i :: 0 <= i < |ps| ==> RankByScore(ps)[i] in ps
  {
    var ranked := RankByScore(ps);
    RankIsSorted(ps);
    RankIsPermutation(ps);
    assert |multiset(ranked)| == |multiset(ps)|;
    forall i | 0 <= i < |ps| ensures ranked[i] in ps {
      assert ranked[i] in multiset(ranked);
    }
  }

  /** Nothing left out scores higher than what was kept: in the ranking, every product past
      the cut scores at most as much as every kept one. */
  lemma CutKeepsBest(candidates: seq<Product>, i: nat, j: nat)
    requires i < |Cut(candidates)| <= j < |RankByScore(candidates)|
    ensures Score(Cut(candidates)[i]) >= Score(RankByScore(candidates)[j])
  {
    RankIsSorted(candidates);
  }
}

=== FILE: gift_wizard.dfy ===
/** The gift assistant's four-step form (src/pages/GiftAssistantPage.tsx): step navigation,
    per-step validation, interest toggling, reset, and the style classifier. */
module GiftWizard {
  import opened Seqs

  datatype FormData = FormData(
    recipientName: string,
    relationship: string,
    occasion: string,
    budget: string,
    interests: seq<string>,
    personalityType: string,
    giftType: string,
    deliveryDate: string)

  const FirstStep: int := 1
  const LastStep: int := 4

  /** The form as the page starts it: every field empty. */
  const EmptyForm: FormData := FormData("", "", "", "", [], "", "", "")

  /** The page's state: the current step, the form, and whether results are shown. */
  datatype Wizard = Wizard(currentStep: int, form: FormData, hasResult: bool, showResults: bool)

  /** The page's state when it first renders: step 1, the empty form, no result, results hidden. */
  const Start: Wizard := Wizard(FirstStep, EmptyForm, false, false)

  /** `nextStep`. */
  function NextStep(step: int): (r: int)
    ensures r == step || r == step + 1
    ensures r == step + 1 <==> step < LastStep
    ensures FirstStep <= step <= LastStep ==> FirstStep <= r <= LastStep
  {
    if step < LastStep then step + 1 else step
  }

  /** `prevStep`. */
  function PrevStep(step: int): (r: int)
    ensures r == step || r == step - 1
    ensures r == step - 1 <==> step > FirstStep
    ensures FirstStep <= step <= LastStep ==> FirstStep <= r <= LastStep
  {
    if step > FirstStep then step - 1 else step
  }

  /** Going forward and back returns to the step one started from, away from the bounds. */
  lemma NextThenPrev(step: int)
    requires FirstStep <= step < LastStep
    ensures PrevStep(NextStep(step)) == step
  {
  }

  lemma PrevThenNext(step: int)
    requires FirstStep < step <= LastStep
    ensures NextStep(PrevStep(step)) == step
  {
  }

  /** `isStepValid`: each step asks for its own fields; strings must be non-empty. */
  function IsStepValid(step: int, f: FormData): (r: bool)
    ensures step == 1 ==> (r <==> f.recipientName != "" && f.relationship != "" && f.occasion != "")
    ensures step == 2 ==> (r <==> f.budget != "" && |f.interests| > 0)
    ensures step == 3 ==> (r <==> f.personalityType != "" && f.giftType != "")
    ensures step == 4 ==> r
    ensures !(FirstStep <= step <= LastStep) ==> !r
  {
    match step
    case 1 => f.recipientName != "" && f.relationship != "" && f.occasion != ""
    case 2 => f.budget != "" && |f.interests| > 0
    case 3 => f.personalityType != "" && f.giftType != ""
    case 4 => true
    case _ => false
  }

  /** The "next" button: disabled (no move) while the current step is invalid. */
  function Advance(w: Wizard): (r: Wizard)
    ensures r.form == w.form
    ensures r.currentStep != w.currentStep ==> IsStepValid(w.currentStep, w.form) && r.currentStep == w.currentStep + 1
    ensures r.currentStep == w.currentStep + 1 <==> IsStepValid(w.currentStep, w.form) && w.currentStep < LastStep
    ensures r.hasResult == w.hasResult && r.showResults == w.showResults
    ensures FirstStep <= w.currentStep <= LastStep ==> FirstStep <= r.currentStep <= LastStep
  {
    if IsStepValid(w.currentStep, w.form) then w.(currentStep := NextStep(w.currentStep)) else w
  }

  /** `resetForm`. */
  function ResetForm(w: Wizard): (r: Wizard)
    ensures r.currentStep == FirstStep
    ensures r.form == EmptyForm
    ensures !IsStepValid(1, r.form) && !IsStepValid(2, r.form) && !IsStepValid(3, r.form)
    ensures !r.hasResult && !r.showResults
    ensures |r.form.interests| == 0
  {
    Wizard(FirstStep, EmptyForm, false, false)
  }

  /** A reset returns the page to the state it first rendered in, whatever came before. */
  lemma ResetRestoresStart(w: Wizard)
    ensures ResetForm(w) == Start
    ensures ResetForm(ResetForm(w)) == ResetForm(w)
  {
  }

  /** After a reset the next button stays disabled until the first step is filled in. */
  lemma ResetBlocksAdvance(w: Wizard)
    ensures Advance(ResetForm(w)) == ResetForm(w)
  {
  }

  function NotEqual(x: string): string -> bool {
    (y: string) => y != x
  }

  /** `toggleInterest`: a present interest is removed, an absent one appended. */
  function ToggleInterest(interests: seq<string>, x: string): (r: seq<string>)
    ensures x in r <==> x !in interests
    ensures forall y :: y != x ==> (y in r <==> y in interests)
    ensures x !in interests ==> r == interests + [x]
  {
    if x in interests then
      var r := Filter(interests, NotEqual(x));
      assert forall i :: 0 <= i < |interests| && interests[i] != x ==> interests[i] in r by {
        forall i | 0 <= i < |interests| && interests[i] != x ensures interests[i] in r {
          assert NotEqual(x)(interests[i]);
        }
      }
      r
    else interests + [x]
  }

  predicate NoDuplicates(xs: seq<string>) {
    forall i, j :: 0 <= i < j < |xs| ==> xs[i] != xs[j]
  }

  /** Toggling off a listed interest cuts out exactly its entry and keeps the others in order. */
  lemma ToggleRemovesAt(interests: seq<string>, k: nat)
    requires NoDuplicates(interests)
    requires k < |interests|
    ensures ToggleInterest(interests, interests[k]) == interests[..k] + interests[k + 1..]
  {
    FilterSplice(interests, k, NotEqual(interests[k]));
  }

  /** Toggling an absent interest twice restores the list. */
  lemma {:induction false} ToggleTwiceRestores(interests: seq<string>, x: string)
    requires x !in interests
    ensures ToggleInterest(ToggleInterest(interests, x), x) == interests
  {
    var once := interests + [x];
    assert x in once;
    FilterAppend(interests, [x], NotEqual(x));
    forall y | y in interests ensures NotEqual(x)(y) {
    }
    FilterKeepsAll(interests, NotEqual(x));
    assert Filter([x], NotEqual(x)) == [];
  }

  /** The set of interests stays free of duplicates under toggling. */
  lemma {:induction false} ToggleKeepsNoDuplicates(interests: seq<string>, x: string)
    requires NoDuplicates(interests)
    ensures NoDuplicates(ToggleInterest(interests, x))
  {
    if x in interests {
      FilterNoDuplicates(interests, NotEqual(x));
    }
  }

  lemma {:induction false} FilterNoDuplicates(xs: seq<string>, keep: string -> bool)
    requires NoDuplicates(xs)
    ensures NoDuplicates(Filter(xs, keep))
  {
    if |xs| > 0 {
      var rest := xs[1..];
      assert NoDuplicates(rest) by {
        forall i, j | 0 <= i < j < |rest| ensures rest[i] != rest[j] {
          assert rest[i] == xs[i + 1] && rest[j] == xs[j + 1];
        }
      }
      FilterNoDuplicates(rest, keep);
      var tail := Filter(rest, keep);
      forall j | 0 <= j < |tail| ensures tail[j] != xs[0] {
        assert tail[j] in rest;
        var k :| 0 <= k < |rest| && rest[k] == tail[j];
        assert rest[k] == xs[k + 1];
      }
      assert Filter(xs, keep) == (if keep(xs[0]) then [xs[0]] else []) + tail;
    }
  }

  datatype Style = Romantic | Creative | Classic | Modern

  /** The classifier's rules in priority order, each with the signal that selects it. */
  function Priority(s: Style): nat {
    match s
    case Romantic => 0
    case Creative => 1
    case Classic => 2
    case Modern => 3
  }

  predicate Signals(f: FormData, s: Style) {
    match s
    case Romantic => f.personalityType == "romantic" || f.occasion == "valentine" || f.occasion == "anniversary"
    case Creative => f.personalityType == "creative" || "art" in f.interests
    case Classic => f.personalityType == "classic" || f.relationship == "parent"
    case Modern => true
  }

  /** The style `analyzeGifts` picks: the first rule, in priority order, whose signal holds. */
  function ClassifyStyle(f: FormData): (r: Style)
    ensures Signals(f, r)
    ensures forall s :: Priority(s) < Priority(r) ==> !Signals(f, s)
  {
    if f.personalityType == "romantic" || f.occasion == "valentine" || f.occasion == "anniversary" then Romantic
    else if f.personalityType == "creative" || "art" in f.interests then Creative
    else if f.personalityType == "classic" || f.relationship == "parent" then Classic
    else Modern
  }
}

=== FILE: seqs.dfy ===
/** Generic sequence folds used by every part of the model: the `reduce` sums and the `filter`s. */
module Seqs {

  /** Left-to-right sum of `f` over `s`: `s.reduce((sum, x) => sum + f(x), 0)`. */
  function SumOf<T>(s: seq<T>, f: T -> int): int
  {
    if |s| == 0 then 0 else f(s[0]) + SumOf(s[1..], f)
  }

  /** Order-preserving selection: `s.filter(keep)`. */
  function Filter<T>(s: seq<T>, keep: T -> bool): (r: seq<T>)
    ensures |r| <= |s|
    ensures forall i :: 0 <= i < |r| ==> r[i] in s && keep(r[i])
    ensures forall i :: 0 <= i < |s| && keep(s[i]) ==> s[i] in r
  {
    if |s| == 0 then [] else (if keep(s[0]) then [s[0]] else []) + Filter(s[1..], keep)
  }

  lemma {:induction false} SumAppend<T>(a: seq<T>, b: seq<T>, f: T -> int)
    ensures SumOf(a + b, f) == SumOf(a, f) + SumOf(b, f)
  {
    if |a| == 0 {
      assert a + b == b;
    } else {
      assert (a + b)[1..] == a[1..] + b;
      SumAppend(a[1..], b, f);
    }
  }

  /** Replacing one element changes the sum by exactly the difference of the two terms. */
  lemma {:induction false} SumUpdate<T>(s: seq<T>, i: nat, x: T, f: T -> int)
    requires i < |s|
    ensures SumOf(s[i := x], f) == SumOf(s, f) - f(s[i]) + f(x)
  {
    if i == 0 {
      assert s[i := x][1..] == s[1..];
    } else {
      assert s[i := x][1..] == s[1..][i - 1 := x];
      SumUpdate(s[1..], i - 1, x, f);
    }
  }

  /** Two sequences whose terms agree position by position have the same sums. */
  lemma {:induction false} SumPointwise<T, U>(s: seq<T>, f: T -> int, t: seq<U>, g: U -> int)
    requires |s| == |t|
    requires forall i :: 0 <= i < |s| ==> f(s[i]) == g(t[i])
    ensures SumOf(s, f) == SumOf(t, g)
  {
    if |s| > 0 {
      SumPointwise(s[1..], f, t[1..], g);
    }
  }

  lemma {:induction false} FilterAppend<T>(a: seq<T>, b: seq<T>, keep: T -> bool)
    ensures Filter(a + b, keep) == Filter(a, keep) + Filter(b, keep)
  {
    if |a| == 0 {
      assert a + b == b;
    } else {
      assert (a + b)[1..] == a[1..] + b;
      FilterAppend(a[1..], b, keep);
    }
  }

  /** Filtering keeps everything exactly when every element passes. */
  lemma {:induction false} FilterKeepsAll<T>(s: seq<T>, keep: T -> bool)
    requires forall x :: x in s ==> keep(x)
    ensures Filter(s, keep) == s
  {
    if |s| > 0 {
      assert s[0] in s;
      FilterKeepsAll(s[1..], keep);
    }
  }

  /** A filter that drops nothing returns a sequence of the same length only when nothing failed. */
  lemma {:induction false} FilterSameLength<T>(s: seq<T>, keep: T -> bool)
    requires |Filter(s, keep)| == |s|
    ensures forall x :: x in s ==> keep(x)
  {
    if |s| > 0 && keep(s[0]) {
      FilterSameLength(s[1..], keep);
    }
  }

  /** Filtering drops everything exactly when nothing passes. */
  lemma {:induction false} FilterDropsAll<T>(s: seq<T>, keep: T -> bool)
    requires forall x :: x in s ==> !keep(x)
    ensures Filter(s, keep) == []
  {
    if |s| > 0 {
      assert s[0] in s;
      FilterDropsAll(s[1..], keep);
    }
  }

  /** When exactly the element at `k` fails, filtering cuts out that element and keeps the
      others in their order. */
  lemma FilterSplice<T>(s: seq<T>, k: nat, keep: T -> bool)
    requires k < |s| && !keep(s[k])
    requires forall i :: 0 <= i < |s| && i != k ==> keep(s[i])
    ensures Filter(s, keep) == s[..k] + s[k + 1..]
  {
    var pre, suf := s[..k], s[k + 1..];
    assert s == (pre + [s[k]]) + suf;
    forall x | x in pre ensures keep(x) {
      var i :| 0 <= i < |pre| && pre[i] == x;
    }
    forall x | x in suf ensures keep(x) {
      var i :| 0 <= i < |suf| && suf[i] == x;
      assert suf[i] == s[k + 1 + i];
    }
    FilterKeepsAll(pre, keep);
    FilterKeepsAll(suf, keep);
    assert Filter([s[k]], keep) == [];
    FilterAppend(pre + [s[k]], suf, keep);
    FilterAppend(pre, [s[k]], keep);
    assert Filter(pre + [s[k]], keep) == pre;
  }
}

=== FILE: wrappers.dfy ===
/** Optional values, standing for JavaScript's `undefined` and for absent document fields. */
module Wrappers {

  datatype Option<+T> = None | Some(value: T) {

    /** The value, or `default` when absent: the shape of `x ?? default`. */
    function GetOr(default: T): T {
      match this
      case Some(v) => v
      case None => default
    }
  }
}
